=== FILE: README.md ===
# Metin2 stone bot: the verifiable core

A Dafny model of the pure logic inside a Windows game-automation toolkit and of the
stone-farming bot built on it. The foreign calls around that logic are replaced by
the values they return: image matching, screen capture, Win32 window and input
calls, and the vision-model request. The model covers these parts:

- **Overlap test and deduplication** (`Overlap`, `Dedup`). `is_significant_overlap`
  compares the intersection of two match rectangles with the smaller area, at the
  fixed ratio 0.7. `find_all_template_locations` ends with a greedy suppression pass
  over the matches, sorted by confidence from the highest.
- **Detection post-processing** (`Detection`). The multi-match locator is an
  oracle from a confidence level to a list of boxes (or an exception). The scan
  steps the level down from 0.70 by 0.02 while it stays at or above 0.65. It stops
  at the first level that yields boxes and records each box's centre. The
  single-best matchers (`find_template_location` and its colored variant) turn
  the matcher's best score and location into a global centre. The threshold is 0.4.
- **Click dispatch** (`Click`). `click_on_window` scales the client point by the
  ratio of window size to client size, truncating like Python's `int()`. It
  offsets the point by the client origin, then sends the cursor move and the
  button events. An invalid handle or a failure gives `False` and no events.
- **Keystrokes** (`Keyboard`). `key_press` and `key_release` set the flag bits.
  Keystrokes with and without a modifier are modelled. The `type_text` loop sends,
  per character: Enter, Shift + key, AltGr + key, or a plain key. The two layouts
  and their character sets and scancode tables are copied from the source. The
  layout is chosen from the language identifier (1055 selects Turkish Q;
  `Keyboard.LayoutFor`).
- **Reply parser** (`ReplyParser`). `extract_coordinates` turns the reply text
  into an on-screen point or `(None, None)`. Python's `strip`, `split(",")` and
  `int()` are modelled on the characters they accept.
- **Request quota and main loop** (`StoneBot`). `analyze_screen` charges one
  request per completed model call and refuses at 500. `run_basic_loop` is driven
  by a finite script of cycle outcomes (screenshot ok, encoding ok, reply) and
  reports the final counter, the points clicked and why it stopped.

Confidence levels are integer hundredths (70, 68, 66; floor 65). The overlap ratio
test `overlap / min_area > 0.7` is written exactly as `10 * overlap > 7 * min_area`.

## Model

| member | source | states |
|---|---|---|
| Overlap.SpanOverlap | utils.py:296-297 | the clipped interval overlap is exactly the number of positions both intervals cover, and at most either length |
| Overlap.OverlapArea | utils.py:296-298 | the overlap area is never more than the area of either match |
| Overlap.IsSignificantOverlap | utils.py:284-302 | a significant overlap needs the two rectangles to intersect in x and in y |
| Overlap.OverlapSymmetric | utils.py:296-302 | the significance test does not depend on the order of its two matches |
| Overlap.ZeroOverlapIffApart | utils.py:296-299 | the overlap area is zero exactly when the rectangles are disjoint in x or in y |
| Overlap.SelfOverlapSignificant | utils.py:296-302 | every match of positive size overlaps itself significantly |
| Overlap.ContainedOverlapSignificant | utils.py:296-302 | a match lying wholly inside another overlaps it significantly (ratio 1 against the smaller area) |
| Overlap.OverlapTranslationInvariant | utils.py:296-302 | moving both matches by the same offset does not change the verdict |
| Overlap.SevenTenthsNotSignificant | utils.py:302 | the comparison is strict: a ratio of exactly 7/10 is not significant, one above it is |
| Overlap.OffsetByFiveNotSignificant | utils.py:284-302 | two 30x30 matches offset by (5, 5) share 625 of 900 pixels, below 0.7, so neither suppresses the other |
| Dedup.Insert | utils.py:277 | inserting a match into a list sorted by confidence keeps it sorted and adds exactly that match; the head is the new match or the old head |
| Dedup.ConsDescending | utils.py:277 | a match of at least the head's confidence can be put in front of a sorted list |
| Dedup.SortByConfidence | utils.py:277 | the sorted list is a permutation of the matches, ordered by confidence from the highest |
| Dedup.InsertKeepsTies | utils.py:277 | inserting a match in front of a list puts it first among the matches of its own confidence, ahead of those already in the list, so ties keep their input order |
| Dedup.WithConfidenceCons | utils.py:277 | the matches of one confidence in `x` followed by a list are `x`, if it has that confidence, then those of the list |
| Dedup.SortIsStable | utils.py:277 | sorting keeps the relative order of the matches of each confidence, as Python's stable sort does |
| Dedup.SortKeepsUniformList | utils.py:277 | a list whose matches all carry one confidence comes out of the sort unchanged |
| Dedup.GreedyLoop | utils.py:278-280 | after the whole list every input is accounted for: kept itself, or dropped for overlapping a kept entry picked before it; the kept entries are a subsequence of the input |
| Dedup.PassOutcome | utils.py:278-280 | a finished pass keeps no match that overlaps an earlier kept one, and keeps the first input first |
| Dedup.GreedyPass | utils.py:276-280 | for any overlap relation: no kept match overlaps an earlier kept one, every dropped one has an earlier kept witness that overlaps it, and the first input is kept first |
| Dedup.KeepStep | utils.py:278-280 | keeping a match that overlaps no kept one extends the pass's invariant by one position |
| Dedup.DropStep | utils.py:278-280 | dropping a match that overlaps a kept one extends the pass's invariant, with that kept match as its witness |
| Dedup.PassIsPairwiseApart | utils.py:278-280 | no two matches the pass keeps overlap significantly |
| Dedup.PassCoversDropped | utils.py:276-280 | every match the pass drops overlaps a kept match that came earlier in the sorted list, of at least its confidence |
| Dedup.PassKeepsHead | utils.py:278-280 | the first match of a non-empty list is always kept, and kept first |
| Dedup.Deduplicate | utils.py:276-280 | the output is a subsequence of the sorted input, non-increasing in confidence and pairwise non-overlapping; every dropped match overlaps an earlier kept one of at least its confidence; the top sorted match is always kept |
| Dedup.SelectionKeepsOrder | utils.py:277-280 | a subsequence of a list sorted by confidence is itself sorted |
| Dedup.HeadIsMaximal | utils.py:277 | the first element of a sorted list has the highest confidence of all |
| Dedup.SubMultiset | utils.py:276-280 | a subsequence draws each match at most as often as the list holds it |
| Detection.Centre | utils.py:264-267 | the recorded point is the box centre rounded down and lies inside the box; size and level are kept |
| Detection.ScanFrom | utils.py:251-273 | levels are tried from the start level downwards by the step and never below the floor; some level is tried iff the start is at or above the floor |
| Detection.ScanFromEmptyBefore | utils.py:263-270 | every level before the last one came back empty |
| Detection.ScanFromLastEmpty | utils.py:254-270 | a scan whose last level came back empty had no level left at or above the floor |
| Detection.ScanFromStops | utils.py:263-273 | every level before the last came back empty, and a scan whose last level came back empty had no level left above the floor |
| Detection.ScanFromMatchesAtLast | utils.py:263-268 | collected matches come only from the last level tried, as the centres of its boxes |
| Detection.ScanFromNoMatches | utils.py:254-273 | no match is collected iff no level tried found a box |
| Detection.ScanFromNothingFound | utils.py:254-273 | when no match is collected, no level tried found a box |
| Detection.ScanFromSomethingFound | utils.py:254-273 | when a match is collected, some level tried found a box |
| Detection.ScanFromMatches | utils.py:263-273 | matches come only from the last level, as the centres of its boxes; there are none iff no level found a box |
| Detection.ScanLevels | utils.py:252-254 | the locator is always queried, first at 0.70 |
| Detection.ScanLevelsShape | utils.py:234-273 | at most the three levels 70, 68, 66 are tried, in that order, and every match carries the last one |
| Detection.ScanStopsAtFirstHit | utils.py:263-273 | a level that yields boxes or raises is the last level tried |
| Detection.FindAllTemplateLocations | utils.py:234-282 | empty iff the scan found nothing; the result is a subsequence of the scan's matches, all at the last level tried; no two results overlap significantly; every match left out overlaps an earlier kept one of at least its confidence; the first match found is always first |
| Detection.DeduplicateScan | utils.py:274-282 | deduplicating matches of one level leaves their order: the result is a subsequence of them, pairwise apart, covering every dropped match, headed by the first |
| Detection.SelectionFromUniform | utils.py:264-280 | whatever is picked from matches of one level is among them and has that level |
| Detection.BestAt | utils.py:178-187 | the returned point is the centre of the template placed at the best location, offset by the region origin: its distance from the placement's corner is half the width (height), rounded down; height comes before width |
| Detection.FindTemplateLocation | utils.py:153-189 | a capture failure or a template that failed to load raises; otherwise no location iff the score is below 0.4, else the centre of the best placement |
| Detection.FindTemplateLocationColored | utils.py:191-223 | a template that failed to load raises before capture; otherwise the same threshold, with the score appended |
| Detection.ColoredAgreesWithGray | utils.py:191-223 | with a loaded template and a successful capture both matchers agree on the location |
| Detection.BestLiesInRegion | utils.py:178-187 | for a placement the matcher can report, the global centre lies inside the searched region |
| Detection.SingleBestExample | utils.py:175-187 | a 20x20 template at local (10, 10) of a region at (480, 480) scoring 0.55 is reported at (500, 500) |
| Click.Truncate | utils.py:31-32 | `int()` of a float rounds toward zero: the result is within one of the value, on the side of zero |
| Click.ScaleCoordinate | utils.py:27-32 | equal window and client extents leave the coordinate unchanged; for a non-negative coordinate, a non-negative window extent and a positive client extent it is the truncated exact quotient `v * window / client` |
| Click.TruncateNegate | utils.py:31-32 | `int()` of a float rounds toward zero, so truncating `-r` gives minus the truncation of `r` |
| Click.ScaleCoordinateSigns | utils.py:27-32 | negating the coordinate or the window extent negates the scaled coordinate, and negating both extents leaves it unchanged, so every sign case follows from the non-negative quotient |
| Click.Clicks | utils.py:41-45 | `n` clicks are `n` button-down/button-up pairs, none for `n <= 0` |
| Click.ClickOnWindow | utils.py:15-51 | succeeds iff the handle is a window and the client size is non-zero; a failure sends nothing; a success moves the cursor to the client origin plus the scaled point, then clicks |
| Click.ClicksAfterMove | utils.py:38-45 | after the cursor move, odd positions press the button and even ones release it |
| Click.UnscaledClickRoundTrip | utils.py:27-38 | at scale 1 the cursor, mapped back to client coordinates, is the requested point |
| Click.ScalingExample | utils.py:27-32 | a 1936-wide window over a 1920-wide client sends x = 960 to 968 |
| Click.ScalingNeverShrinks | utils.py:27-32 | a window at least as large as its client never scales a non-negative point towards the origin |
| Click.UnitScale | utils.py:27-32 | a ratio of equal extents leaves a coordinate unchanged through the truncation |
| Click.TruncatedQuotientBounds | utils.py:27-32 | for non-negative inputs the truncated scaled value brackets the exact product `v * window` between multiples of the client extent |
| Keyboard.KeyPress | utils.py:328-332 | a press always has the scancode flag, never the key-up flag, and the extended flag iff asked for, and no other flag: its flag word is 0x8 or 0x9 |
| Keyboard.KeyRelease | utils.py:334-338 | a release always has both the scancode and key-up flags, and the extended flag iff asked for, and no other flag: its flag word is 0xA or 0xB |
| Keyboard.KeyPressAndRelease | utils.py:328-343 | a press then a release of the one key, neither extended, both sent with the scancode flag |
| Keyboard.KeyPressWithModifier | utils.py:328-350 | the modifier goes down first and comes up last, with a plain keystroke of the key in between; nothing is extended and every event carries the scancode flag |
| Keyboard.ReplayAppend | utils.py:340-350 | replaying events in two parts is replaying them in one |
| Keyboard.KeystrokesAreNested | utils.py:340-350 | a plain or modified keystroke releases exactly what it presses, innermost first |
| Keyboard.PressThenRelease | utils.py:340-343 | a press then release of one key leaves the held keys as they were |
| Keyboard.ModifiedKeyOrder | utils.py:345-350 | a modified character is modifier down, key down, key up, modifier up |
| Keyboard.LayoutFor | utils.py:358-376 | language 1055 selects Turkish Q and every other identifier US QWERTY, which has no AltGr characters |
| Keyboard.Lower | utils.py:392-396 | lowering gives one character, or two for `İ` only; the result holds no ASCII capital; other ASCII characters are unchanged |
| Keyboard.LowerInvertsAsciiUpper | utils.py:392-396 | every ASCII capital lowers to its own small letter |
| Keyboard.LowerNonAsciiCapitals | utils.py:363-396 | the Turkish capitals `Ç Ğ Ö Ş Ü` lower to `ç ğ ö ş ü`, and the Kelvin sign lowers to `k` |
| Keyboard.CapitalPressesItsLetter | utils.py:388-396 | typing an ASCII capital succeeds iff its small letter has a scancode, fails naming that letter otherwise, and presses the small letter's scancode as the keystroke |
| Keyboard.Classify | utils.py:388-396 | newline first, then the Shift set, then the AltGr set, then plain, as an exact precedence |
| Keyboard.CharEvents | utils.py:388-396 | newline always succeeds; any other character succeeds iff its lower case has a scancode, and a failure names that missing key; a success is 4 events for a modified key and 2 otherwise, presses Enter or the lower case's scancode in the middle, and leaves no key down; every event is sent by scancode, none is extended and none carries a flag other than key-up |
| Keyboard.TypeCharsCompletes | utils.py:388-396 | typing completes iff every character's stroke succeeds; otherwise the failure is that of the first failing character, all earlier ones having gone through |
| Keyboard.TypeCharsStep | utils.py:388-396 | a first character that goes through contributes its events ahead of the rest of the typing |
| Keyboard.TypeCharsNested | utils.py:388-396 | if each stroke releases what it presses, so does the whole typing |
| Keyboard.TypeCharsConcat | utils.py:388-396 | typing `a + b` is typing `a` then `b` when `a` goes through |
| Keyboard.TypeText | utils.py:356-396 | `type_text` completes iff every character is a newline or has a scancode through its lower case; a failure names the lower case of the first such character, all characters before it being typeable; whatever it sent, even up to a failure, leaves no key held down and was sent by scancode, never extended, with no flag other than key-up |
| Keyboard.TypeCharsSendsEachChar | utils.py:388-396 | when every character's stroke succeeds, the loop sends exactly the strokes of the characters, one after the other in text order, and reports no failure |
| Keyboard.TypeCharsStopsAt | utils.py:388-396 | at the first character whose stroke fails, the loop stops: it has sent exactly what the characters before it send, and the failure is that character's |
| Keyboard.TypeTextSendsEachChar | utils.py:388-396 | a text that types completely sends each character's keystroke (Enter, plain, Shift- or Alt-wrapped) in text order, and nothing else |
| Keyboard.TypeTextStopsAtFirstGap | utils.py:388-396 | at the first character without a scancode, `type_text` has sent exactly the keystrokes of the characters before it and raises on that character's lower case |
| Keyboard.TypeCharsByScancode | utils.py:328-396 | when every character's events are sent by scancode, not extended and with no flag but key-up, so is everything the loop sends |
| Keyboard.TypeTextConcat | utils.py:388-396 | `type_text(a + b)` sends `a`'s events followed by `b`'s when `a` types completely |
| Keyboard.UsNeverUsesAltGr | utils.py:326 | no character takes the AltGr branch in the US layout |
| Keyboard.UsShiftCharsAreTypeable | utils.py:325-386 | every US Shift character has a scancode through its lower case |
| Keyboard.TurkishShiftGaps | utils.py:321-371 | in the Turkish layout `"`, `£` and `^` take the Shift branch but have no scancode, so typing them raises |
| Keyboard.TurkishAltGrGaps | utils.py:322-371 | in the Turkish layout `@ # $ { } €` take the AltGr branch but have no scancode, so typing them raises |
| Keyboard.TurkishPlainGaps | utils.py:360-396 | in the Turkish layout `q`, `w`, `x` and their capitals have no scancode, so typing them raises |
| Keyboard.DottedCapitalGap | utils.py:388-396 | `İ` lowers to the two characters `i̇`, which no table has as a key, so typing it raises with that key in either layout |
| ReplyParser.LeadingSpaces | metin2_stone_bot.py:130-131 | counts exactly the whitespace run at the start of a field |
| ReplyParser.TrailingSpaces | metin2_stone_bot.py:130-131 | counts exactly the whitespace run at the end of a field |
| ReplyParser.Strip | metin2_stone_bot.py:130-131 | the stripped field neither starts nor ends with whitespace and holds only characters of the field |
| ReplyParser.StripPadded | metin2_stone_bot.py:130-131 | whitespace around a field with non-blank ends is removed exactly |
| ReplyParser.Split | metin2_stone_bot.py:128-129 | fields hold no comma, and there are at least two fields iff the reply holds a comma (so the length guard always passes) |
| ReplyParser.JoinSplit | metin2_stone_bot.py:128 | joining the fields with commas gives back the reply |
| ReplyParser.SplitAtFirstComma | metin2_stone_bot.py:128 | the first field is the text before the first comma |
| ReplyParser.ParseInt | metin2_stone_bot.py:130-131 | a field parses iff it is an optional sign and then ASCII digits, at least one; the value is the decimal value of the digits, negated after a minus; a negative value needs a leading minus |
| ReplyParser.ZerosValue | metin2_stone_bot.py:130-131 | a run of zeros has value 0 |
| ReplyParser.LeadingZerosValue | metin2_stone_bot.py:130-131 | leading zeros do not change the value of a run of digits |
| ReplyParser.ParseSignedPadded | metin2_stone_bot.py:130-131 | an optional `+` or `-`, any number of leading zeros and then the decimal digits of `n` parse to `n` with that sign |
| ReplyParser.ParseShow | metin2_stone_bot.py:130-131 | parsing the decimal form of any integer gives the integer back |
| ReplyParser.ReadPair | metin2_stone_bot.py:130-139 | both fields parse and the point is on screen (bounds inclusive) iff a point is returned, and then it is the parsed pair; otherwise `(None, None)` |
| ReplyParser.ExtractCoordinates | metin2_stone_bot.py:120-146 | both coordinates are present or both absent; present ones are on screen, bounds inclusive; no reply, an empty one, `NONE` or one without a comma gives `(None, None)` |
| ReplyParser.TwoFields | metin2_stone_bot.py:127-139 | only the first two fields matter: anything after a second comma is ignored |
| ReplyParser.UnparsableFieldRejected | metin2_stone_bot.py:130-146 | a first or second field that is not an integer gives `(None, None)` |
| ReplyParser.PaddedShowParses | metin2_stone_bot.py:130-131 | the decimal form of an integer with any blanks around it holds no comma and parses back to the integer after stripping |
| ReplyParser.ShowParsesStripped | metin2_stone_bot.py:130-131 | the decimal form of an integer is already stripped and parses back to the integer |
| ReplyParser.FormattedReplyRoundTrip | metin2_stone_bot.py:120-146 | `"X,Y"` with any surrounding blanks gives `(X, Y)` iff the point is on screen, else `(None, None)` |
| ReplyParser.PlainReplyRoundTrip | metin2_stone_bot.py:120-139 | a reply `"X,Y"` gives `(X, Y)` iff the point is on screen |
| ReplyParser.PlainReplyIsStripped | metin2_stone_bot.py:109 | a reply `"X,Y"` is unchanged by stripping, so the bot parses the very text it received |
| StoneBot.AnalyzeScreen | metin2_stone_bot.py:79-118 | at the quota nothing is charged and nothing returned; a request is charged iff the call completed below the quota with an encodable image; an answer comes back stripped iff one was charged and the call answered |
| StoneBot.AnalyzeKeepsQuota | metin2_stone_bot.py:83-104 | a counter at or below 500 stays at or below 500 |
| StoneBot.ClickAt | metin2_stone_bot.py:186-190 | a click happens iff both coordinates were extracted from the reply, exactly at that pair, which is on screen |
| StoneBot.FormattedAnswerIsClicked | metin2_stone_bot.py:186-190 | an answer `"X,Y"` on screen is clicked at `(X, Y)` |
| StoneBot.RunLoop | metin2_stone_bot.py:157-205 | for any parse-and-click step that stays on screen: the counter only grows, by at most one per cycle, never past 500 (or past where it started); each click is on screen and paid for by a request; the loop stops on the limit iff the counter reached 500, and runs out of script only below it |
| StoneBot.RunBasicLoop | metin2_stone_bot.py:157-205 | with extract_coordinates as the step: the counter never passes 500 (or where it started), and every click is on screen and paid for by a request |
| StoneBot.ClicksComeFromAnswers | metin2_stone_bot.py:179-190 | for any click step, every click is what the step made of the stripped text of some answered cycle |
| StoneBot.BasicClicksAreRepliedPoints | metin2_stone_bot.py:157-205 | every click of the basic loop is the pair extract_coordinates read from some answer |
| StoneBot.AnsweredCyclesExhaustQuota | metin2_stone_bot.py:163-183 | for any click step, when every cycle is answered the loop spends exactly the remaining quota and stops on the limit |
| StoneBot.AnsweredStepCharges | metin2_stone_bot.py:179-183 | for any click step, an answered cycle below the quota charges exactly one request, and the rest of the session continues from there |
| StoneBot.FailedScreenshotsAreFree | metin2_stone_bot.py:171-176 | for any click step, failed screenshots change nothing: the session is as if they never happened |
| StoneBot.AnswerIsClicked | metin2_stone_bot.py:178-191 | a well-formed on-screen answer costs one request and is clicked before the rest of the session |
| StoneBot.InterruptStops | metin2_stone_bot.py:199-205 | Ctrl+C ends the session at once, with no further request or click |

## Behaviour worth noting

- Two 30x30 matches at (100, 100) and (105, 105) are both kept by the
  deduplication. Their overlap ratio is 625/900 ≈ 0.694, which is not above 0.7
  (`Overlap.OffsetByFiveNotSignificant`).
- Scaling x = 960 by 1936/1920 gives `int(960 * (1936 / 1920))` = 968. The exact
  product is 968, and the IEEE double computation also lands on 968
  (`Click.ScalingExample`).
- The overlap test reads the recorded centres as top-left corners. For two boxes
  of the same size this changes nothing, because the test depends only on the
  offset between the two boxes (`Overlap.OverlapTranslationInvariant`). The model
  keeps the code's reading.
- In the Turkish layout some characters cannot be typed. `"`, `£` and `^` are in
  the Shift set but not in the scancode table. Of the characters that take the
  AltGr branch only `'` and `<` have a scancode; ``@ € ₺ ~ æ ß ´ ` | ¬ ½ # $ { [ ] }``
  have none. `q`, `w`, `x` and their capitals are plain keys with no scancode. `İ` lowers to two
  characters. Typing any of them raises KeyError, and the model reports that as
  a failure (`Keyboard.TurkishShiftGaps`, `Keyboard.TurkishAltGrGaps`,
  `Keyboard.TurkishPlainGaps`, `Keyboard.DottedCapitalGap`).
- The AltGr branch presses scancode 0x38 as the modifier without the extended-key
  flag. That is the left Alt key; AltGr (right Alt) is 0x38 with the extended
  flag. The model sends what the code sends (`Keyboard.AltScancode`).

## Left out

- Screen capture, `cv2` template matching, `locateAllOnScreen` and
  `preprocess_image`. These are foreign image libraries; their results are
  parameters (`Scored`, the `locate` oracle).
- Win32 calls: `SetCursorPos`, `mouse_event`, `keybd_event`, `ClientToScreen`,
  `GetWindowRect`, `GetClientRect`. They become the values they report (`Window`)
  and the events they receive (`MouseEvent`, `KeyEvent`). A failure inside
  `mouse_event` itself is not modelled.
- Window management is OS plumbing with no logic to verify: `scroll_down`,
  `is_fullscreen`, `toggle_fullscreen`, `drag_and_drop`,
  `bring_window_to_foreground`.
- `GetKeyboardLayout` and its `& 0xFFFF` mask: the language identifier is a
  parameter of `Keyboard.LayoutFor`.
- The Telegram approval and screenshot coroutines: network and asyncio.
- `wait_for_window` and every `sleep`: time-based polling with no logical content.
- The vision-model client, PNG and base64 conversion, screenshots, `test_mvp1`
  and `main`. The outcome of each step is a field of `StoneBot.Cycle`.
- `constants.py`: the values the model needs are written inline.
- Floating point. Confidence levels are integer hundredths. The float loop also
  tries three levels, 0.70, 0.68 and 0.66 (rounded), so the sequence of calls is
  the same. The overlap ratio is compared exactly. Click scaling uses exact
  reals, not IEEE doubles. The logged value of `current_confidence` is not
  modelled.
- Parameters left at their default values: `overlap_threshold` (0.7) and the
  start/floor/step of the confidence scan.
- Detection.Centre: box sizes are positive. A zero smaller area would raise
  ZeroDivisionError in the overlap test, and the locator never reports one.
- Click.ScaleCoordinate: the quotient bracket is stated for a non-negative
  coordinate, a non-negative window extent and a positive client extent only;
  the other sign cases are reached through `Click.ScaleCoordinateSigns`.
- ReplyParser.ParseInt: accepts an optional sign and ASCII digits only. Python's
  `int()` also accepts underscores between digits and non-ASCII digits.
- ReplyParser.Strip: strips ASCII whitespace only, not the Unicode spaces that
  `str.strip()` also removes.
- Keyboard.TurkishAltGrGaps: proved for `@ # $ { } €`; the remaining AltGr
  gaps listed above follow the same way but are not stated as lemmas, because
  evaluating the table on each character is costly for the solver.
- Keyboard.Lower: exact only for the characters whose lower case can be a table
  key. For every other character the lookup fails with or without lowering.
- StoneBot.RunLoop: the parse-and-click step is a parameter, so the loop's
  properties hold for any step that clicks only on screen; `StoneBot.RunBasicLoop`
  instantiates it with `extract_coordinates` (`StoneBot.ClickAt`).
- StoneBot.RunBasicLoop: the unbounded loop is driven by a finite script of
  cycles; when the script runs out the session ends as `InputExhausted`. An
  interrupt is modelled at the start of a cycle only.
- StoneBot.AnalyzeScreen: a reply whose first part has no text raises
  after the request is counted. The model folds this into `NoContent`, which
  has the same effect.

=== FILE: click.dfy ===
/** Click dispatch into a window (utils.py, click_on_window): scale the point by the
    ratio of window size to client size, translate it to the screen and click. The
    window APIs are replaced by the values they report. */
module Click {
  import opened Common

  /** `(left, top, right, bottom)` as GetWindowRect reports it. */
  datatype Rect = Rect(left: int, top: int, right: int, bottom: int)

  /** What the window APIs report for a handle: whether it is a window, its outer
      rectangle, its client size and the screen position of the client origin
      (the offset ClientToScreen adds). */
  datatype Window = Window(isWindow: bool, windowRect: Rect, clientWidth: int, clientHeight: int, clientOrigin: Point)

  datatype MouseEvent = MoveCursor(to: Point) | LeftDown | LeftUp

  /** Whether the click was dispatched, and the mouse events it produced. */
  datatype ClickOutcome = ClickOutcome(ok: bool, events: seq<MouseEvent>)

  /** Python's `int()` on a float: rounds toward zero. */
  function Truncate(r: real): (t: int)
    ensures r >= 0.0 ==> t as real <= r < t as real + 1.0
    ensures r < 0.0 ==> t as real - 1.0 < r <= t as real
  {
    if r >= 0.0 then r.Floor else -((-r).Floor)
  }

  /** `int(v * (windowExtent / clientExtent))`; a zero client extent is a division by zero. */
  function ScaleCoordinate(v: int, windowExtent: int, clientExtent: int): (s: int)
    requires clientExtent != 0
    ensures windowExtent == clientExtent ==> s == v
    ensures v >= 0 && windowExtent >= 0 && clientExtent > 0 ==>
      s * clientExtent <= v * windowExtent < (s + 1) * clientExtent
  {
    var scaled := v as real * (windowExtent as real / clientExtent as real);
    TruncatedQuotientBounds(v, windowExtent, clientExtent, scaled);
    if windowExtent == clientExtent then
      UnitScale(v, clientExtent, scaled);
      Truncate(scaled)
    else
      Truncate(scaled)
  }

  /** `int()` rounds toward zero, so it commutes with negation. */
  lemma TruncateNegate(r: real)
    ensures Truncate(-r) == -Truncate(r)
  {
  }

  /** `int(v * (windowExtent / clientExtent))` with no facts attached, so that the
      sign lemmas below see only the truncation and the real arithmetic. */
  function TruncatedScale(v: int, windowExtent: int, clientExtent: int): int
    requires clientExtent != 0
  {
    Truncate(v as real * (windowExtent as real / clientExtent as real))
  }

  lemma ScaleIsTruncatedScale(v: int, windowExtent: int, clientExtent: int)
    requires clientExtent != 0
    ensures ScaleCoordinate(v, windowExtent, clientExtent) == TruncatedScale(v, windowExtent, clientExtent)
  {
  }

  /** Negating the coordinate negates the scaled coordinate. */
  lemma ScaleNegatedCoordinate(v: int, windowExtent: int, clientExtent: int)
    requires clientExtent != 0
    ensures TruncatedScale(-v, windowExtent, clientExtent) == -TruncatedScale(v, windowExtent, clientExtent)
  {
    var ratio := windowExtent as real / clientExtent as real;
    assert (-v) as real == -(v as real);
    NegateFactor(v as real, ratio);
    TruncateNegate(v as real * ratio);
  }

  /** Negating the window extent negates the scaled coordinate. */
  lemma ScaleNegatedWindow(v: int, windowExtent: int, clientExtent: int)
    requires clientExtent != 0
    ensures TruncatedScale(v, -windowExtent, clientExtent) == -TruncatedScale(v, windowExtent, clientExtent)
  {
    var ratio := windowExtent as real / clientExtent as real;
    NegateQuotient(windowExtent as real, clientExtent as real);
    assert (-windowExtent) as real == -(windowExtent as real);
    NegateFactor(v as real, ratio);
    TruncateNegate(v as real * ratio);
  }

  /** Negating both extents leaves the ratio, and so the scaled coordinate, unchanged. */
  lemma ScaleNegatedExtents(v: int, windowExtent: int, clientExtent: int)
    requires clientExtent != 0
    ensures TruncatedScale(v, -windowExtent, -clientExtent) == TruncatedScale(v, windowExtent, clientExtent)
  {
    assert (-windowExtent) as real == -(windowExtent as real);
    assert (-clientExtent) as real == -(clientExtent as real);
    NegateBoth(windowExtent as real, clientExtent as real);
  }

  /** Every sign case of the scaling reduces to the non-negative bracket of
      `ScaleCoordinate`. */
  lemma ScaleCoordinateSigns(v: int, windowExtent: int, clientExtent: int)
    requires clientExtent != 0
    ensures ScaleCoordinate(-v, windowExtent, clientExtent) == -ScaleCoordinate(v, windowExtent, clientExtent)
    ensures ScaleCoordinate(v, -windowExtent, clientExtent) == -ScaleCoordinate(v, windowExtent, clientExtent)
    ensures ScaleCoordinate(v, -windowExtent, -clientExtent) == ScaleCoordinate(v, windowExtent, clientExtent)
  {
    ScaleIsTruncatedScale(v, windowExtent, clientExtent);
    ScaleIsTruncatedScale(-v, windowExtent, clientExtent);
    ScaleIsTruncatedScale(v, -windowExtent, clientExtent);
    ScaleIsTruncatedScale(v, -windowExtent, -clientExtent);
    ScaleNegatedCoordinate(v, windowExtent, clientExtent);
    ScaleNegatedWindow(v, windowExtent, clientExtent);
    ScaleNegatedExtents(v, windowExtent, clientExtent);
  }

  lemma NegateQuotient(a: real, c: real)
    requires c != 0.0
    ensures (-a) / c == -(a / c)
  {
    assert ((-a) / c) * c == -a;
  }

  lemma NegateBoth(a: real, c: real)
    requires c != 0.0
    ensures (-a) / (-c) == a / c
  {
    assert ((-a) / (-c)) * c == a;
  }

  lemma NegateFactor(a: real, b: real)
    ensures (-a) * b == -(a * b) && a * (-b) == -(a * b)
  {
  }

  lemma UnitScale(v: int, extent: int, scaled: real)
    requires extent != 0 && scaled == v as real * (extent as real / extent as real)
    ensures Truncate(scaled) == v
  {
    assert extent as real / extent as real == 1.0;
    TruncateIntegral(v);
  }

  lemma TruncatedQuotientBounds(v: int, windowExtent: int, clientExtent: int, scaled: real)
    requires clientExtent != 0 && scaled == v as real * (windowExtent as real / clientExtent as real)
    ensures v >= 0 && windowExtent >= 0 && clientExtent > 0 ==>
      Truncate(scaled) * clientExtent <= v * windowExtent < (Truncate(scaled) + 1) * clientExtent
  {
    if v >= 0 && windowExtent >= 0 && clientExtent > 0 {
      var c := clientExtent as real;
      assert windowExtent as real / c >= 0.0;
      assert scaled >= 0.0;
      QuotientTimesDivisor(v as real, windowExtent as real, c);
      CastProduct(v, windowExtent);
      BracketFromReal(Truncate(scaled), v * windowExtent, clientExtent, scaled);
    }
  }

  /** If `x * c == n` and `t <= x < t + 1`, then `t * c <= n < (t + 1) * c`. */
  lemma BracketFromReal(t: int, n: int, c: int, x: real)
    requires c > 0 && x * c as real == n as real
    requires t as real <= x < t as real + 1.0
    ensures t * c <= n < (t + 1) * c
  {
    ScaleByPositive(t as real, x, c as real);
    ScaleByPositive(x, t as real + 1.0, c as real);
    CastProduct(t, c);
    CastProduct(t + 1, c);
  }

  lemma QuotientTimesDivisor(a: real, b: real, c: real)
    requires c != 0.0
    ensures a * (b / c) * c == a * b
  {
    assert (b / c) * c == b;
  }

  lemma TruncateIntegral(v: int)
    ensures Truncate(v as real) == v
  {
    if v < 0 {
      assert -(v as real) == (-v) as real;
    }
  }

  lemma CastProduct(a: int, b: int)
    ensures (a * b) as real == a as real * b as real
  {
  }

  lemma ScaleByPositive(a: real, b: real, c: real)
    requires a <= b && c > 0.0
    ensures a * c <= b * c
    ensures a < b ==> a * c < b * c
  {
  }

  /** `n` clicks: a button-down then a button-up, `n` times (none for `n <= 0`). */
  function Clicks(n: int): (r: seq<MouseEvent>)
    ensures |r| == 2 * Max(n, 0)
    ensures forall i :: 0 <= i < |r| ==> r[i] == (if i % 2 == 0 then LeftDown else LeftUp)
    decreases n
  {
    if n <= 0 then [] else [LeftDown, LeftUp] + Clicks(n - 1)
  }

  /** click_on_window. An invalid handle raises and a zero client extent divides by
      zero; both are caught and reported as `False` with no input sent. */
  function ClickOnWindow(w: Window, x: int, y: int, clickTimes: int): (r: ClickOutcome)
    ensures r.ok <==> w.isWindow && w.clientWidth != 0 && w.clientHeight != 0
    ensures !r.ok ==> r.events == []
    ensures r.ok ==>
      && |r.events| == 1 + 2 * Max(clickTimes, 0)
      && r.events[0] == MoveCursor(Point(
           w.clientOrigin.x + ScaleCoordinate(x, w.windowRect.right - w.windowRect.left, w.clientWidth),
           w.clientOrigin.y + ScaleCoordinate(y, w.windowRect.bottom - w.windowRect.top, w.clientHeight)))
      && (forall i :: 1 <= i < |r.events| ==> r.events[i] == (if i % 2 == 1 then LeftDown else LeftUp))
  {
    if !w.isWindow then ClickOutcome(false, [])
    else if w.clientWidth == 0 || w.clientHeight == 0 then ClickOutcome(false, [])
    else
      var sx := ScaleCoordinate(x, w.windowRect.right - w.windowRect.left, w.clientWidth);
      var sy := ScaleCoordinate(y, w.windowRect.bottom - w.windowRect.top, w.clientHeight);
      var move := MoveCursor(Point(w.clientOrigin.x + sx, w.clientOrigin.y + sy));
      ClicksAfterMove(move, clickTimes);
      ClickOutcome(true, [move] + Clicks(clickTimes))
  }

  /** After the cursor move, odd positions press the button and even ones release it. */
  lemma ClicksAfterMove(move: MouseEvent, n: int)
    ensures forall i :: 1 <= i < |[move] + Clicks(n)| ==>
      ([move] + Clicks(n))[i] == (if i % 2 == 1 then LeftDown else LeftUp)
  {
    var es := [move] + Clicks(n);
    forall i | 1 <= i < |es| ensures es[i] == (if i % 2 == 1 then LeftDown else LeftUp) {
      assert es[i] == Clicks(n)[i - 1];
      assert (i - 1) % 2 == 0 <==> i % 2 == 1;
    }
  }

  /** Screen to client: subtract the client origin. */
  function ScreenToClient(w: Window, p: Point): Point {
    Point(p.x - w.clientOrigin.x, p.y - w.clientOrigin.y)
  }

  /** When the window and client sizes agree (scale 1), the cursor lands on the client
      point itself: mapping the cursor back to client coordinates gives `(x, y)`. */
  lemma UnscaledClickRoundTrip(w: Window, x: int, y: int, clickTimes: int)
    requires w.isWindow && w.clientWidth > 0 && w.clientHeight > 0
    requires w.windowRect.right - w.windowRect.left == w.clientWidth
    requires w.windowRect.bottom - w.windowRect.top == w.clientHeight
    ensures var r := ClickOnWindow(w, x, y, clickTimes);
      r.ok && r.events[0].MoveCursor? && ScreenToClient(w, r.events[0].to) == Point(x, y)
  {
  }

  /** A 1936-wide window over a 1920-wide client scales x = 960 to exactly 968
      (960 * 1936 / 1920 = 968, truncated to itself). */
  lemma ScalingExample()
    ensures ScaleCoordinate(960, 1936, 1920) == 968
  {
    assert 960 * 1936 == 968 * 1920;
  }

  /** With non-negative coordinates and a window at least as large as its client,
      scaling never moves a point towards the origin. */
  lemma ScalingNeverShrinks(v: int, windowExtent: int, clientExtent: int)
    requires v >= 0 && windowExtent >= clientExtent > 0
    ensures ScaleCoordinate(v, windowExtent, clientExtent) >= v
  {
    var s := ScaleCoordinate(v, windowExtent, clientExtent);
    MulMonotone(clientExtent, windowExtent, v);
    CancelFactor(v, s + 1, clientExtent);
  }

  lemma CancelFactor(a: int, b: int, c: int)
    requires c > 0 && a * c < b * c
    ensures a < b
  {
    if a >= b {
      MulMonotone(b, a, c);
    }
  }
}

=== FILE: common.dfy ===
/** Small shared vocabulary: optional values, results, points and integer helpers. */
module Common {

  /** Python's `None` or a value. */
  datatype Option<+T> = None | Some(value: T)

  /** A value or the error that the source raises instead of returning. */
  datatype Result<+T, +E> = Ok(value: T) | Err(error: E)

  /** A pixel position. */
  datatype Point = Point(x: int, y: int)

  /** Positive pixel extents (template and box sizes). */
  type Pos = n: int | n > 0 witness 1

  function Min(a: int, b: int): int { if a <= b then a else b }

  function Max(a: int, b: int): int { if a >= b then a else b }

  /** Multiplying by a non-negative factor keeps order. */
  lemma MulMonotone(a: int, b: int, c: int)
    requires a <= b && c >= 0
    ensures c * a <= c * b && a * c <= b * c
  {
  }

  /** Regrouping a concatenation; a step Dafny does not always take on its own. */
  lemma ConcatAssoc<T>(a: seq<T>, b: seq<T>, c: seq<T>)
    ensures a + b + c == a + (b + c)
  {
  }
}

=== FILE: dedup.dfy ===
/** Greedy suppression of overlapping matches (utils.py, the tail of find_all_template_locations). */
module Dedup {
  import opened Common
  import opened Overlap

  /** Confidence never increases along `s`. */
  predicate Descending(s: seq<Match>) {
    forall i, j :: 0 <= i < j < |s| ==> s[i].confidence >= s[j].confidence
  }

  /** The matches of confidence `c`, in their order in `s`. */
  function WithConfidence(s: seq<Match>, c: int): seq<Match> {
    if s == [] then []
    else (if s[0].confidence == c then [s[0]] else []) + WithConfidence(s[1..], c)
  }

  /** Puts `m` after every element of strictly higher confidence and before the rest. */
  function Insert(m: Match, t: seq<Match>): (r: seq<Match>)
    requires Descending(t)
    ensures Descending(r)
    ensures multiset(r) == multiset(t) + multiset{m}
    ensures |r| == |t| + 1
    ensures r[0] == m || (t != [] && r[0] == t[0])
  {
    if t == [] || t[0].confidence <= m.confidence then
      ConsDescending(m, t);
      [m] + t
    else
      var rest := Insert(m, t[1..]);
      assert t == [t[0]] + t[1..];
      ConsDescending(t[0], rest);
      [t[0]] + rest
  }

  /** A match at least as confident as the head of a descending list extends it. */
  lemma ConsDescending(x: Match, s: seq<Match>)
    requires Descending(s)
    requires s == [] || x.confidence >= s[0].confidence
    ensures Descending([x] + s)
  {
    var r := [x] + s;
    forall i, j | 0 <= i < j < |r| ensures r[i].confidence >= r[j].confidence {
      if i > 0 {
        assert r[i] == s[i - 1] && r[j] == s[j - 1];
      } else {
        assert r[j] == s[j - 1];
      }
    }
  }

  /** `sorted(s, key=confidence, reverse=True)`: a stable sort, highest confidence first. */
  function SortByConfidence(s: seq<Match>): (r: seq<Match>)
    ensures Descending(r)
    ensures multiset(r) == multiset(s)
    ensures |r| == |s|
  {
    if s == [] then []
    else
      assert s == [s[0]] + s[1..];
      Insert(s[0], SortByConfidence(s[1..]))
  }

  lemma {:induction false} InsertKeepsTies(m: Match, t: seq<Match>, c: int)
    requires Descending(t)
    ensures WithConfidence(Insert(m, t), c) == (if m.confidence == c then [m] else []) + WithConfidence(t, c)
    decreases |t|
  {
    if t == [] || t[0].confidence <= m.confidence {
      WithConfidenceCons(m, t, c);
    } else {
      InsertKeepsTies(m, t[1..], c);
      WithConfidenceCons(t[0], Insert(m, t[1..]), c);
      WithConfidenceCons(t[0], t[1..], c);
      assert [t[0]] + t[1..] == t;
    }
  }

  lemma WithConfidenceCons(x: Match, t: seq<Match>, c: int)
    ensures WithConfidence([x] + t, c) == (if x.confidence == c then [x] else []) + WithConfidence(t, c)
  {
    assert ([x] + t)[1..] == t;
  }

  /** Stability: matches of equal confidence keep their input order. Together with the
      contract of SortByConfidence this pins the output down completely. */
  lemma {:induction false} SortIsStable(s: seq<Match>, c: int)
    ensures WithConfidence(SortByConfidence(s), c) == WithConfidence(s, c)
    decreases |s|
  {
    if s != [] {
      SortIsStable(s[1..], c);
      InsertKeepsTies(s[0], SortByConfidence(s[1..]), c);
    }
  }

  /** When every match carries one confidence (as the threshold scan produces),
      sorting leaves the list as it is. */
  lemma {:induction false} SortKeepsUniformList(s: seq<Match>, c: int)
    requires forall i :: 0 <= i < |s| ==> s[i].confidence == c
    ensures SortByConfidence(s) == s
    decreases |s|
  {
    if s != [] {
      SortKeepsUniformList(s[1..], c);
      assert [s[0]] + s[1..] == s;
    }
  }

  /** `any(overlaps(m, e) for e in kept)` */
  predicate OverlapsAny<T>(m: T, kept: seq<T>, overlaps: (T, T) -> bool) {
    exists i :: 0 <= i < |kept| && overlaps(m, kept[i])
  }

  /** `picked` lists distinct positions below `n` in increasing order. */
  predicate IsSelection(picked: seq<nat>, n: nat) {
    && (forall i :: 0 <= i < |picked| ==> picked[i] < n)
    && (forall i, j :: 0 <= i < j < |picked| ==> picked[i] < picked[j])
  }

  /** The deduplication loop: walk the matches by descending confidence and keep a
      match unless it overlaps significantly with one already kept. `picked` (ghost)
      records which positions of the sorted list were kept. */
  method Deduplicate(matches: seq<Match>) returns (kept: seq<Match>, ghost picked: seq<nat>)
    ensures var sorted := SortByConfidence(matches);
      && IsSelection(picked, |sorted|)
      && |kept| == |picked|
      && (forall i :: 0 <= i < |kept| ==> kept[i] == sorted[picked[i]])
    ensures Descending(kept)
    ensures PairwiseApart(kept)
    ensures CoversDropped(SortByConfidence(matches), kept, picked)
    ensures multiset(kept) <= multiset(matches)
    ensures matches != [] ==> kept != [] && kept[0] == SortByConfidence(matches)[0]
    ensures matches != [] ==> forall m :: m in matches ==> kept[0].confidence >= m.confidence
  {
    var sorted := SortByConfidence(matches);
    ghost var owner;
    kept, picked, owner := GreedyPass(sorted, IsSignificantOverlap);
    SelectionKeepsOrder(kept, picked, sorted);
    SubMultiset(kept, picked, sorted);
    PassIsPairwiseApart(sorted, kept, picked, owner);
    PassCoversDropped(sorted, kept, picked, owner);
    if matches != [] {
      PassKeepsHead(sorted, IsSignificantOverlap, kept, picked, owner);
      HeadIsMaximal(matches);
    }
  }

  /** No two distinct kept matches overlap significantly. */
  predicate PairwiseApart(kept: seq<Match>) {
    forall i, j :: 0 <= i < |kept| && 0 <= j < |kept| && i != j ==> !IsSignificantOverlap(kept[i], kept[j])
  }

  /** Every match of `sorted` left out of `picked` overlaps significantly with a kept
      match that came earlier and is at least as confident. */
  predicate CoversDropped(sorted: seq<Match>, kept: seq<Match>, picked: seq<nat>)
    requires |kept| == |picked|
  {
    forall k :: 0 <= k < |sorted| && k !in picked ==>
      exists i :: 0 <= i < |kept| && picked[i] < k &&
                  IsSignificantOverlap(sorted[k], kept[i]) && kept[i].confidence >= sorted[k].confidence
  }

  /** The kept matches are pairwise apart, in both orders. */
  lemma PassIsPairwiseApart(sorted: seq<Match>, kept: seq<Match>, picked: seq<nat>, owner: seq<nat>)
    requires PassState(sorted, IsSignificantOverlap, |sorted|, kept, picked, owner)
    ensures PairwiseApart(kept)
  {
    forall i, j | 0 <= i < |kept| && 0 <= j < |kept| && i != j
      ensures !IsSignificantOverlap(kept[i], kept[j])
    {
      if i < j { OverlapSymmetric(kept[i], kept[j]); }
    }
  }

  /** Every dropped match overlaps an earlier kept one, of at least its confidence. */
  lemma PassCoversDropped(sorted: seq<Match>, kept: seq<Match>, picked: seq<nat>, owner: seq<nat>)
    requires PassState(sorted, IsSignificantOverlap, |sorted|, kept, picked, owner)
    requires Descending(sorted)
    ensures CoversDropped(sorted, kept, picked)
  {
    forall k | 0 <= k < |sorted| && k !in picked
      ensures exists i :: 0 <= i < |kept| && picked[i] < k &&
                IsSignificantOverlap(sorted[k], kept[i]) && kept[i].confidence >= sorted[k].confidence
    {
      var i := owner[k];
      assert picked[i] != k;
      assert picked[i] < k && IsSignificantOverlap(sorted[k], kept[i]);
    }
  }

  /** The first match of the sorted list is always kept, first. */
  lemma PassKeepsHead<T>(sorted: seq<T>, overlaps: (T, T) -> bool, kept: seq<T>, picked: seq<nat>, owner: seq<nat>)
    requires PassState(sorted, overlaps, |sorted|, kept, picked, owner)
    requires sorted != []
    ensures kept != [] && kept[0] == sorted[0]
  {
    var i := owner[0];
    assert picked[i] == 0;
  }

  /** State of the greedy pass after the first `k` matches of `sorted`. */
  ghost predicate PassState<T>(sorted: seq<T>, overlaps: (T, T) -> bool, k: nat,
                               kept: seq<T>, picked: seq<nat>, owner: seq<nat>)
  {
    && k <= |sorted|
    && |kept| == |picked| && |owner| == k
    && IsSelection(picked, k)
    && (forall i :: 0 <= i < |kept| ==> kept[i] == sorted[picked[i]])
    && (forall i, j :: 0 <= i < j < |kept| ==> !overlaps(kept[j], kept[i]))
    && (forall j :: 0 <= j < k ==>
         && owner[j] < |kept|
         && (picked[owner[j]] == j || (picked[owner[j]] < j && overlaps(sorted[j], kept[owner[j]]))))
  }

  lemma KeepStep<T>(sorted: seq<T>, overlaps: (T, T) -> bool, k: nat,
                    kept: seq<T>, picked: seq<nat>, owner: seq<nat>)
    requires PassState(sorted, overlaps, k, kept, picked, owner) && k < |sorted|
    requires !OverlapsAny(sorted[k], kept, overlaps)
    ensures PassState(sorted, overlaps, k + 1, kept + [sorted[k]], picked + [k], owner + [|kept|])
  {
    var kept', picked', owner' := kept + [sorted[k]], picked + [k], owner + [|kept|];
    forall j | 0 <= j < k + 1
      ensures owner'[j] < |kept'|
      ensures picked'[owner'[j]] == j || (picked'[owner'[j]] < j && overlaps(sorted[j], kept'[owner'[j]]))
    {
      if j < k {
        var i := owner[j];
        assert owner'[j] == i && i < |kept|;
        assert kept'[i] == kept[i] && picked'[i] == picked[i];
      }
    }
  }

  lemma DropStep<T>(sorted: seq<T>, overlaps: (T, T) -> bool, k: nat,
                    kept: seq<T>, picked: seq<nat>, owner: seq<nat>, i: nat)
    requires PassState(sorted, overlaps, k, kept, picked, owner) && k < |sorted|
    requires i < |kept| && overlaps(sorted[k], kept[i])
    ensures PassState(sorted, overlaps, k + 1, kept, picked, owner + [i])
  {
    var owner' := owner + [i];
    forall j | 0 <= j < k + 1
      ensures owner'[j] < |kept|
      ensures picked[owner'[j]] == j || (picked[owner'[j]] < j && overlaps(sorted[j], kept[owner'[j]]))
    {
      if j < k {
        assert owner'[j] == owner[j];
      }
    }
  }

  /** The loop itself, over an already sorted list and for any overlap relation;
      `owner[j]` is the kept entry that accounts for the j-th input: itself, or an
      earlier kept entry that suppressed it. */
  method GreedyPass<T>(sorted: seq<T>, overlaps: (T, T) -> bool) returns (kept: seq<T>, ghost picked: seq<nat>, ghost owner: seq<nat>)
    ensures PassState(sorted, overlaps, |sorted|, kept, picked, owner)
    ensures forall i, j :: 0 <= i < j < |kept| ==> !overlaps(kept[j], kept[i])
    ensures sorted != [] ==> kept != [] && kept[0] == sorted[0]
  {
    kept, picked, owner := GreedyLoop(sorted, overlaps);
    PassOutcome(sorted, overlaps, kept, picked, owner);
  }

  method GreedyLoop<T>(sorted: seq<T>, overlaps: (T, T) -> bool) returns (kept: seq<T>, ghost picked: seq<nat>, ghost owner: seq<nat>)
    ensures PassState(sorted, overlaps, |sorted|, kept, picked, owner)
  {
    kept := [];
    picked := [];
    owner := [];
    for k := 0 to |sorted|
      invariant PassState(sorted, overlaps, k, kept, picked, owner)
    {
      if !OverlapsAny(sorted[k], kept, overlaps) {
        KeepStep(sorted, overlaps, k, kept, picked, owner);
        owner := owner + [|kept|];
        kept := kept + [sorted[k]];
        picked := picked + [k];
      } else {
        var i :| 0 <= i < |kept| && overlaps(sorted[k], kept[i]);
        DropStep(sorted, overlaps, k, kept, picked, owner, i);
        owner := owner + [i];
      }
    }
  }

  /** What a finished pass guarantees beyond its state: the kept entries do not
      overlap earlier ones, and the first input is kept first. */
  lemma PassOutcome<T>(sorted: seq<T>, overlaps: (T, T) -> bool, kept: seq<T>, picked: seq<nat>, owner: seq<nat>)
    requires PassState(sorted, overlaps, |sorted|, kept, picked, owner)
    ensures forall i, j :: 0 <= i < j < |kept| ==> !overlaps(kept[j], kept[i])
    ensures sorted != [] ==> kept != [] && kept[0] == sorted[0]
  {
    if sorted != [] {
      PassKeepsHead(sorted, overlaps, kept, picked, owner);
    }
  }

  /** A selection of a descending list is descending. */
  lemma SelectionKeepsOrder(kept: seq<Match>, picked: seq<nat>, s: seq<Match>)
    requires IsSelection(picked, |s|) && |kept| == |picked| && Descending(s)
    requires forall i :: 0 <= i < |kept| ==> kept[i] == s[picked[i]]
    ensures Descending(kept)
  {
  }

  /** The head of the sorted list has the highest confidence of the input. */
  lemma HeadIsMaximal(s: seq<Match>)
    requires s != []
    ensures forall m :: m in s ==> SortByConfidence(s)[0].confidence >= m.confidence
  {
    var r := SortByConfidence(s);
    forall m | m in s ensures r[0].confidence >= m.confidence {
      assert m in multiset(r);
      var j :| 0 <= j < |r| && r[j] == m;
    }
  }

  /** Elements at distinct positions of `s` form a sub-multiset of `s`. */
  lemma {:induction false} SubMultiset(kept: seq<Match>, picked: seq<nat>, s: seq<Match>)
    requires IsSelection(picked, |s|) && |kept| == |picked|
    requires forall i :: 0 <= i < |kept| ==> kept[i] == s[picked[i]]
    ensures multiset(kept) <= multiset(s)
    decreases |s|
  {
    if s == [] {
      assert kept == [];
    } else if |picked| > 0 && picked[|picked| - 1] == |s| - 1 {
      var n := |kept| - 1;
      SubMultiset(kept[..n], picked[..n], s[..|s| - 1]);
      assert kept == kept[..n] + [s[|s| - 1]];
      assert s == s[..|s| - 1] + [s[|s| - 1]];
    } else {
      SubMultiset(kept, picked, s[..|s| - 1]);
      assert s == s[..|s| - 1] + [s[|s| - 1]];
    }
  }
}

=== FILE: detection.dfy ===
/** Template detection around the image matcher (utils.py, find_template_location,
    find_template_location_colored and find_all_template_locations). The matcher
    itself is an oracle: its answers are parameters. */
module Detection {
  import opened Common
  import opened Overlap
  import opened Dedup

  /** A box reported by the multi-match locator (`left, top, width, height`). */
  datatype Box = Box(left: int, top: int, width: Pos, height: Pos)

  /** One answer of the multi-match locator at a given confidence: the boxes it
      found, or an exception. */
  datatype Located = Found(boxes: seq<Box>) | Raised
  {
    /** The locator ran and found nothing at this level. */
    predicate CameBackEmpty() {
      Found? && |boxes| == 0
    }

    /** The locator found at least one box at this level. */
    predicate HasBoxes() {
      Found? && |boxes| > 0
    }
  }

  /** Confidence levels in hundredths: start 0.70, floor 0.65, step 0.02. */
  const StartConfidence := 70
  const MinConfidence := 65
  const ConfidenceStep := 2

  /** The match tuple recorded for a box: centre (floor halves), size, confidence. */
  function Centre(b: Box, confidence: int): (m: Match)
    ensures b.left <= m.x < b.left + b.width && b.top <= m.y < b.top + b.height
    ensures m.width == b.width && m.height == b.height && m.confidence == confidence
    ensures 2 * (m.x - b.left) <= b.width < 2 * (m.x - b.left) + 2
    ensures 2 * (m.y - b.top) <= b.height < 2 * (m.y - b.top) + 2
  {
    Match(b.left + b.width / 2, b.top + b.height / 2, b.width, b.height, confidence)
  }

  function Centres(bs: seq<Box>, confidence: int): seq<Match> {
    seq(|bs|, i requires 0 <= i < |bs| => Centre(bs[i], confidence))
  }

  /** The levels the scan queried, in order, and the matches it collected. */
  datatype Scan = Scan(tried: seq<int>, matches: seq<Match>)

  /** The threshold-stepping loop from confidence `level` downwards. */
  function ScanFrom(locate: int -> Located, level: int): (r: Scan)
    decreases if level < MinConfidence then 0 else level - MinConfidence + 1
    ensures r.tried != [] ==> r.tried[0] == level
    ensures forall i, j :: 0 <= i && j == i + 1 && j < |r.tried| ==> r.tried[j] == r.tried[i] - ConfidenceStep
    ensures forall i :: 0 <= i < |r.tried| ==> r.tried[i] >= MinConfidence
    ensures level >= MinConfidence <==> r.tried != []
  {
    if level < MinConfidence then Scan([], [])
    else match locate(level)
      case Raised => Scan([level], [])
      case Found(bs) =>
        if |bs| == 0 then
          var rest := ScanFrom(locate, level - ConfidenceStep);
          Scan([level] + rest.tried, rest.matches)
        else Scan([level], Centres(bs, level))
  }

  /** The level the scan stopped at. */
  function LastLevel(scan: Scan): int
    requires scan.tried != []
  {
    scan.tried[|scan.tried| - 1]
  }

  /** Every level before the last one came back empty. */
  lemma {:induction false} ScanFromEmptyBefore(locate: int -> Located, level: int)
    ensures forall i :: 0 <= i < |ScanFrom(locate, level).tried| - 1 ==>
      locate(ScanFrom(locate, level).tried[i]).CameBackEmpty()
    decreases if level < MinConfidence then 0 else level - MinConfidence + 1
  {
    var r := ScanFrom(locate, level);
    if level >= MinConfidence {
      if locate(level).CameBackEmpty() {
        var rest := ScanFrom(locate, level - ConfidenceStep);
        ScanFromEmptyBefore(locate, level - ConfidenceStep);
        assert r.tried == [level] + rest.tried;
        assert forall i :: 1 <= i < |r.tried| ==> r.tried[i] == rest.tried[i - 1];
      } else {
        assert r.tried == [level];
      }
    }
  }

  /** A scan whose last level came back empty has run out of levels. */
  lemma {:induction false} ScanFromLastEmpty(locate: int -> Located, level: int)
    ensures ScanFrom(locate, level).tried != [] ==>
      var last := LastLevel(ScanFrom(locate, level));
      locate(last).CameBackEmpty() ==> last - ConfidenceStep < MinConfidence
    decreases if level < MinConfidence then 0 else level - MinConfidence + 1
  {
    var r := ScanFrom(locate, level);
    if level >= MinConfidence {
      if locate(level).CameBackEmpty() {
        var rest := ScanFrom(locate, level - ConfidenceStep);
        ScanFromLastEmpty(locate, level - ConfidenceStep);
        assert r.tried == [level] + rest.tried;
        if rest.tried != [] {
          assert LastLevel(r) == LastLevel(rest);
        }
      } else {
        assert r.tried == [level];
      }
    }
  }

  /** Every level before the last one came back empty, and a scan whose last level
      came back empty has run out of levels. */
  lemma ScanFromStops(locate: int -> Located, level: int)
    ensures var r := ScanFrom(locate, level);
      forall i :: 0 <= i < |r.tried| - 1 ==> locate(r.tried[i]).CameBackEmpty()
    ensures var r := ScanFrom(locate, level);
      r.tried != [] && locate(r.tried[|r.tried| - 1]).CameBackEmpty() ==>
        r.tried[|r.tried| - 1] - ConfidenceStep < MinConfidence
  {
    ScanFromEmptyBefore(locate, level);
    ScanFromLastEmpty(locate, level);
  }

  /** Matches come only from the last level, as the centres of its boxes. */
  lemma {:induction false} ScanFromMatchesAtLast(locate: int -> Located, level: int)
    ensures ScanFrom(locate, level).matches != [] ==>
      && ScanFrom(locate, level).tried != []
      && var last := LastLevel(ScanFrom(locate, level));
         locate(last).HasBoxes() && ScanFrom(locate, level).matches == Centres(locate(last).boxes, last)
    decreases if level < MinConfidence then 0 else level - MinConfidence + 1
  {
    var r := ScanFrom(locate, level);
    if level >= MinConfidence {
      if locate(level).CameBackEmpty() {
        var rest := ScanFrom(locate, level - ConfidenceStep);
        ScanFromMatchesAtLast(locate, level - ConfidenceStep);
        assert r.tried == [level] + rest.tried && r.matches == rest.matches;
        if rest.tried != [] {
          assert LastLevel(r) == LastLevel(rest);
        }
      } else if locate(level).HasBoxes() {
        assert r == Scan([level], Centres(locate(level).boxes, level));
      } else {
        assert r == Scan([level], []);
      }
    }
  }

  /** A scan that collected nothing found a box at no level. */
  lemma {:induction false} ScanFromNothingFound(locate: int -> Located, level: int)
    ensures ScanFrom(locate, level).matches == [] ==>
      forall i :: 0 <= i < |ScanFrom(locate, level).tried| ==> !locate(ScanFrom(locate, level).tried[i]).HasBoxes()
    decreases if level < MinConfidence then 0 else level - MinConfidence + 1
  {
    var r := ScanFrom(locate, level);
    if level >= MinConfidence && r.matches == [] && locate(level).CameBackEmpty() {
      var rest := ScanFrom(locate, level - ConfidenceStep);
      ScanFromNothingFound(locate, level - ConfidenceStep);
      assert r.tried == [level] + rest.tried && r.matches == rest.matches;
      forall i | 0 <= i < |r.tried|
        ensures !locate(r.tried[i]).HasBoxes()
      {
        if i > 0 {
          assert r.tried[i] == rest.tried[i - 1];
        }
      }
    } else if level >= MinConfidence && r.matches == [] && locate(level).HasBoxes() {
      assert false;
    }
  }

  /** A scan that collected a match found a box at some level. */
  lemma {:induction false} ScanFromSomethingFound(locate: int -> Located, level: int)
    ensures ScanFrom(locate, level).matches != [] ==>
      exists i :: 0 <= i < |ScanFrom(locate, level).tried| && locate(ScanFrom(locate, level).tried[i]).HasBoxes()
    decreases if level < MinConfidence then 0 else level - MinConfidence + 1
  {
    var r := ScanFrom(locate, level);
    if level >= MinConfidence && r.matches != [] {
      if locate(level).CameBackEmpty() {
        var rest := ScanFrom(locate, level - ConfidenceStep);
        ScanFromSomethingFound(locate, level - ConfidenceStep);
        assert r.tried == [level] + rest.tried && r.matches == rest.matches;
        var k :| 0 <= k < |rest.tried| && locate(rest.tried[k]).HasBoxes();
        assert r.tried[k + 1] == rest.tried[k];
      } else {
        assert r.tried[0] == level;
      }
    }
  }

  /** No match is collected exactly when no level found a box. */
  lemma ScanFromNoMatches(locate: int -> Located, level: int)
    ensures ScanFrom(locate, level).matches == [] <==>
      forall i :: 0 <= i < |ScanFrom(locate, level).tried| ==> !locate(ScanFrom(locate, level).tried[i]).HasBoxes()
  {
    ScanFromNothingFound(locate, level);
    ScanFromSomethingFound(locate, level);
  }

  /** The matches are the centres of the last level's boxes, and there are none
      exactly when no level found a box. */
  lemma ScanFromMatches(locate: int -> Located, level: int)
    ensures var r := ScanFrom(locate, level);
      r.matches != [] ==>
        && r.tried != []
        && var last := r.tried[|r.tried| - 1];
           locate(last).HasBoxes() && r.matches == Centres(locate(last).boxes, last)
    ensures var r := ScanFrom(locate, level);
      r.matches == [] <==> forall i :: 0 <= i < |r.tried| ==> !locate(r.tried[i]).HasBoxes()
  {
    ScanFromMatchesAtLast(locate, level);
    ScanFromNoMatches(locate, level);
  }

  /** The scan as find_all_template_locations runs it: the detector is always
      queried, first at 0.70. */
  function ScanLevels(locate: int -> Located): (r: Scan)
    ensures r.tried != [] && r.tried[0] == StartConfidence
  {
    ScanFrom(locate, StartConfidence)
  }

  /** At most the three levels 0.70, 0.68, 0.66 are queried, in that order, and every
      collected match carries the one level that produced it. */
  lemma ScanLevelsShape(locate: int -> Located)
    ensures 1 <= |ScanLevels(locate).tried| <= 3
    ensures ScanLevels(locate).tried == [70, 68, 66][..|ScanLevels(locate).tried|]
    ensures forall i :: 0 <= i < |ScanLevels(locate).matches| ==>
      ScanLevels(locate).matches[i].confidence == LastLevel(ScanLevels(locate))
  {
    var r := ScanLevels(locate);
    ScanFromStops(locate, StartConfidence);
    ScanFromMatches(locate, StartConfidence);
    if |r.tried| > 3 {
      assert false;
    }
  }

  /** The scan stops at the first level with a match: a level that answers with boxes
      is the last one queried, and an exception also ends the scan. */
  lemma ScanStopsAtFirstHit(locate: int -> Located, i: nat)
    requires i < |ScanLevels(locate).tried|
    requires !locate(ScanLevels(locate).tried[i]).CameBackEmpty()
    ensures i == |ScanLevels(locate).tried| - 1
  {
    ScanFromStops(locate, StartConfidence);
    ScanFromMatches(locate, StartConfidence);
  }

  /** find_all_template_locations: scan the levels, then deduplicate. `picked`
      (ghost) lists the positions of the scan's matches that survive. */
  method FindAllTemplateLocations(locate: int -> Located) returns (result: seq<Match>, ghost picked: seq<nat>)
    ensures var scan := ScanLevels(locate);
      && (result == [] <==> scan.matches == [])
      && (forall m :: m in result ==> m in scan.matches)
      && (forall m :: m in result ==> m.confidence == scan.tried[|scan.tried| - 1])
    ensures var matches := ScanLevels(locate).matches;
      && IsSelection(picked, |matches|)
      && |result| == |picked|
      && (forall i :: 0 <= i < |result| ==> result[i] == matches[picked[i]])
    ensures PairwiseApart(result)
    ensures CoversDropped(ScanLevels(locate).matches, result, picked)
    ensures ScanLevels(locate).matches != [] ==> result[0] == ScanLevels(locate).matches[0]
  {
    var scan := ScanLevels(locate);
    ScanLevelsShape(locate);
    result, picked := DeduplicateScan(scan);
  }

  /** Deduplication of one scan's matches, which all carry the level it stopped at. */
  method DeduplicateScan(scan: Scan) returns (result: seq<Match>, ghost picked: seq<nat>)
    requires scan.tried != []
    requires forall i :: 0 <= i < |scan.matches| ==> scan.matches[i].confidence == LastLevel(scan)
    ensures result == [] <==> scan.matches == []
    ensures forall m :: m in result ==> m in scan.matches && m.confidence == LastLevel(scan)
    ensures IsSelection(picked, |scan.matches|) && |result| == |picked|
    ensures forall i :: 0 <= i < |result| ==> result[i] == scan.matches[picked[i]]
    ensures PairwiseApart(result)
    ensures CoversDropped(scan.matches, result, picked)
    ensures scan.matches != [] ==> result[0] == scan.matches[0]
  {
    var level := LastLevel(scan);
    SortKeepsUniformList(scan.matches, level);
    result, picked := Deduplicate(scan.matches);
    SelectionFromUniform(scan.matches, level, result, picked);
  }

  /** What is picked from a list of matches of one confidence is drawn from that
      list and has that confidence. */
  lemma SelectionFromUniform(matches: seq<Match>, level: int, result: seq<Match>, picked: seq<nat>)
    requires forall i :: 0 <= i < |matches| ==> matches[i].confidence == level
    requires IsSelection(picked, |matches|) && |result| == |picked|
    requires forall i :: 0 <= i < |result| ==> result[i] == matches[picked[i]]
    ensures forall m :: m in result ==> m in matches && m.confidence == level
  {
    forall m | m in result
      ensures m in matches && m.confidence == level
    {
      var i :| 0 <= i < |result| && result[i] == m;
      assert m == matches[picked[i]];
    }
  }

  /** Template size as the image loader reports it: `shape` is `(height, width)`. */
  datatype Dims = Dims(height: Pos, width: Pos)

  /** What the matcher produced on the captured region: the best score and its
      top-left location, or a capture failure. */
  datatype Scored = Scored(maxVal: real, maxLoc: Point) | CaptureFailed

  datatype DetectError =
    | TemplateNotFound   // the colored variant checks the loaded template itself
    | CaptureError       // the screenshot raised
    | MatchError         // the matcher raised on a template that failed to load

  /** The screen region searched: `(x, y, width, height)`. */
  datatype Region = Region(x: int, y: int, width: int, height: int)

  /** A returned location `(global_x, global_y, h, w)`: height before width. */
  datatype Best = Best(x: int, y: int, height: int, width: int)

  /** The low single-best threshold 0.4. */
  const BestThreshold: real := 0.4

  /** Region origin plus the centre of the template placed at the best location. */
  function BestAt(template: Dims, region: Region, loc: Point): (b: Best)
    ensures region.x + loc.x <= b.x < region.x + loc.x + template.width
    ensures region.y + loc.y <= b.y < region.y + loc.y + template.height
    ensures 2 * (b.x - region.x - loc.x) <= template.width < 2 * (b.x - region.x - loc.x) + 2
    ensures 2 * (b.y - region.y - loc.y) <= template.height < 2 * (b.y - region.y - loc.y) + 2
    ensures b.height == template.height && b.width == template.width
  {
    Best(region.x + loc.x + template.width / 2, region.y + loc.y + template.height / 2,
         template.height, template.width)
  }

  /** find_template_location: the grayscale single-best matcher. A template that failed
      to load surfaces only when the matcher runs, after the capture. */
  function FindTemplateLocation(template: Option<Dims>, region: Region, scored: Scored)
    : (r: Result<Option<Best>, DetectError>)
    ensures scored.CaptureFailed? <==> r == Err(CaptureError)
    ensures scored.Scored? && template.None? <==> r == Err(MatchError)
    ensures r.Ok? <==> scored.Scored? && template.Some?
    ensures r.Ok? ==> (r.value.None? <==> scored.maxVal < BestThreshold)
    ensures r.Ok? && r.value.Some? ==> r.value.value == BestAt(template.value, region, scored.maxLoc)
  {
    match scored
    case CaptureFailed => Err(CaptureError)
    case Scored(maxVal, maxLoc) =>
      match template
      case None => Err(MatchError)
      case Some(t) => Ok(if maxVal >= BestThreshold then Some(BestAt(t, region, maxLoc)) else None)
  }

  /** find_template_location_colored: checks the template before capturing and
      appends the score to the location. */
  function FindTemplateLocationColored(template: Option<Dims>, region: Region, scored: Scored)
    : (r: Result<Option<(Best, real)>, DetectError>)
    ensures template.None? <==> r == Err(TemplateNotFound)
    ensures template.Some? && scored.CaptureFailed? <==> r == Err(CaptureError)
    ensures r.Ok? ==> (r.value.None? <==> scored.maxVal < BestThreshold)
    ensures r.Ok? && r.value.Some? ==> r.value.value.1 == scored.maxVal && scored.maxVal >= BestThreshold
  {
    match template
    case None => Err(TemplateNotFound)
    case Some(t) =>
      match scored
      case CaptureFailed => Err(CaptureError)
      case Scored(maxVal, maxLoc) =>
        Ok(if maxVal >= BestThreshold then Some((BestAt(t, region, maxLoc), maxVal)) else None)
  }

  /** Once the template loads and the capture succeeds, both variants agree on the
      location; the colored one adds the score. */
  lemma ColoredAgreesWithGray(t: Dims, region: Region, maxVal: real, maxLoc: Point)
    ensures var gray := FindTemplateLocation(Some(t), region, Scored(maxVal, maxLoc));
      var colored := FindTemplateLocationColored(Some(t), region, Scored(maxVal, maxLoc));
      && gray.Ok? && colored.Ok?
      && (gray.value.None? <==> colored.value.None?)
      && (gray.value.Some? ==> colored.value.value == (gray.value.value, maxVal))
  {
  }

  /** When the best location is a valid placement of the template inside the region
      (as the matcher's result grid guarantees), the returned centre lies in the region. */
  lemma BestLiesInRegion(t: Dims, region: Region, maxVal: real, maxLoc: Point)
    requires 0 <= maxLoc.x <= region.width - t.width && 0 <= maxLoc.y <= region.height - t.height
    requires maxVal >= BestThreshold
    ensures var r := FindTemplateLocation(Some(t), region, Scored(maxVal, maxLoc));
      && r.Ok? && r.value.Some?
      && region.x <= r.value.value.x < region.x + region.width
      && region.y <= r.value.value.y < region.y + region.height
  {
  }

  /** A 20x20 template whose best score 0.55 sits at local (10, 10) of a region at
      (480, 480): one location, centred at (500, 500). */
  lemma SingleBestExample()
    ensures FindTemplateLocation(Some(Dims(20, 20)), Region(480, 480, 100, 100), Scored(0.55, Point(10, 10)))
         == Ok(Some(Best(500, 500, 20, 20)))
  {
  }
}

=== FILE: keyboard.dfy ===
/** Synthetic keystrokes (utils.py, key_press, key_release, key_press_and_release,
    key_press_with_modifier and the classification loop of type_text). Each call to
    keybd_event becomes one KeyEvent; the delays between them are not modelled. */
module Keyboard {
  import opened Common

  const KeyeventfExtendedKey: bv32 := 0x0001
  const KeyeventfKeyUp: bv32 := 0x0002
  const KeyeventfScancode: bv32 := 0x0008

  /** Scancodes of the two modifiers and of Enter. 0x38 sent without the
      extended-key flag is the left Alt key, although the AltGr branch uses it. */
  const LeftShift := 0x2A
  const AltScancode := 0x38
  const EnterScancode := 0x1c

  /** One keybd_event call: a hardware scancode and the flag word. */
  datatype KeyEvent = KeyEvent(scancode: int, flags: bv32) {
    predicate IsRelease() {
      flags & KeyeventfKeyUp != 0
    }
  }

  /** key_press: scancode flag, plus the extended-key flag on request; never key-up. */
  function KeyPress(scancode: int, extended: bool): (e: KeyEvent)
    ensures e.scancode == scancode
    ensures e.flags & KeyeventfScancode == KeyeventfScancode
    ensures e.flags & KeyeventfKeyUp == 0 && !e.IsRelease()
    ensures e.flags & KeyeventfExtendedKey != 0 <==> extended
    ensures e.flags & !(KeyeventfScancode | KeyeventfExtendedKey) == 0
  {
    KeyEvent(scancode, if extended then KeyeventfScancode | KeyeventfExtendedKey else KeyeventfScancode)
  }

  /** key_release: scancode and key-up flags, plus the extended-key flag on request. */
  function KeyRelease(scancode: int, extended: bool): (e: KeyEvent)
    ensures e.scancode == scancode
    ensures e.flags & (KeyeventfScancode | KeyeventfKeyUp) == KeyeventfScancode | KeyeventfKeyUp
    ensures e.IsRelease()
    ensures e.flags & KeyeventfExtendedKey != 0 <==> extended
    ensures e.flags & !(KeyeventfScancode | KeyeventfKeyUp | KeyeventfExtendedKey) == 0
  {
    var up := KeyeventfScancode | KeyeventfKeyUp;
    KeyEvent(scancode, if extended then up | KeyeventfExtendedKey else up)
  }

  /** key_press_and_release: the key goes down, then comes up; never extended. */
  function KeyPressAndRelease(scancode: int): (r: seq<KeyEvent>)
    ensures |r| == 2 && !r[0].IsRelease() && r[1].IsRelease()
    ensures forall e :: e in r ==> e.scancode == scancode && e.flags & KeyeventfExtendedKey == 0
    ensures forall e :: e in r ==> e.flags & KeyeventfScancode == KeyeventfScancode
    ensures forall e :: e in r ==> ByScancode(e)
  {
    [KeyPress(scancode, false), KeyRelease(scancode, false)]
  }

  /** key_press_with_modifier: modifier down, key down, key up, modifier up. The key
      is struck while the modifier is held, and the modifier comes up last. */
  function KeyPressWithModifier(scancode: int, modifier: int): (r: seq<KeyEvent>)
    ensures |r| == 4 && r[1..3] == KeyPressAndRelease(scancode)
    ensures !r[0].IsRelease() && r[0].scancode == modifier
    ensures r[3].IsRelease() && r[3].scancode == modifier
    ensures forall e :: e in r ==> e.flags & KeyeventfExtendedKey == 0
    ensures forall e :: e in r ==> e.flags & KeyeventfScancode == KeyeventfScancode
    ensures forall e :: e in r ==> ByScancode(e)
  {
    [KeyPress(modifier, false)] + KeyPressAndRelease(scancode) + [KeyRelease(modifier, false)]
  }

  /** Replays key events against the stack of keys held down: a press pushes its
      scancode, a release must release the most recently pressed key. `None` when a
      release does not match. */
  function Replay(events: seq<KeyEvent>, held: seq<int>): Option<seq<int>>
    decreases |events|
  {
    if events == [] then Some(held)
    else if events[0].IsRelease() then
      if held != [] && held[|held| - 1] == events[0].scancode
      then Replay(events[1..], held[..|held| - 1])
      else None
    else Replay(events[1..], held + [events[0].scancode])
  }

  lemma {:induction false} ReplayAppend(a: seq<KeyEvent>, b: seq<KeyEvent>, held: seq<int>)
    ensures Replay(a + b, held) == (match Replay(a, held) case None => None case Some(h) => Replay(b, h))
    decreases |a|
  {
    if a != [] {
      assert (a + b)[1..] == a[1..] + b;
      if a[0].IsRelease() {
        if held != [] && held[|held| - 1] == a[0].scancode {
          ReplayAppend(a[1..], b, held[..|held| - 1]);
        }
      } else {
        ReplayAppend(a[1..], b, held + [a[0].scancode]);
      }
    } else {
      assert a + b == b;
    }
  }

  lemma PressThenRelease(scancode: int, held: seq<int>)
    ensures Replay(KeyPressAndRelease(scancode), held) == Some(held)
  {
    var h := held + [scancode];
    assert h[..|h| - 1] == held;
    assert KeyPressAndRelease(scancode)[1..] == [KeyRelease(scancode, false)];
    assert Replay([KeyRelease(scancode, false)], h) == Replay([], held);
  }

  /** Both keystroke shapes release exactly what they press, innermost first. */
  lemma KeystrokesAreNested(scancode: int, modifier: int, held: seq<int>)
    ensures Replay(KeyPressAndRelease(scancode), held) == Some(held)
    ensures Replay(KeyPressWithModifier(scancode, modifier), held) == Some(held)
  {
    PressThenRelease(scancode, held);
    var hm := held + [modifier];
    assert hm[..|hm| - 1] == held;
    PressThenRelease(scancode, hm);
    var withMod := KeyPressWithModifier(scancode, modifier);
    assert withMod[1..] == KeyPressAndRelease(scancode) + [KeyRelease(modifier, false)];
    ReplayAppend(KeyPressAndRelease(scancode), [KeyRelease(modifier, false)], hm);
    assert Replay([KeyRelease(modifier, false)], hm) == Replay([], held);
  }

  datatype Layout = TurkishQ | UsQwerty

  /** Language identifier of the Turkish Q layout. */
  const TurkishLanguageId := 1055

  /** The layout type_text picks from the language identifier of the active layout. */
  function LayoutFor(languageId: int): (layout: Layout)
    ensures layout == TurkishQ <==> languageId == TurkishLanguageId
    ensures layout == UsQwerty ==> forall c :: !IsAltGrChar(layout, c)
  {
    if languageId == TurkishLanguageId then TurkishQ else UsQwerty
  }

  /** Membership in the layout's Shift set (`set('...')` in the source). */
  predicate IsShiftChar(layout: Layout, c: char) {
    match layout
    case TurkishQ => IsTurkishShiftChar(c)
    case UsQwerty => IsUsShiftChar(c)
  }

  predicate IsTurkishShiftChar(c: char) {
    match c
    case 'A' | 'B' | 'C' | 'Ç' | 'D' | 'E' | 'F' | 'G' | 'Ğ' | 'H' | 'I' | 'İ'
       | 'J' | 'K' | 'L' | 'M' | 'N' | 'O' | 'Ö' | 'P' | 'R' | 'S' | 'Ş' | 'T'
       | 'U' | 'Ü' | 'V' | 'Y' | 'Z' | '!' | '"' | '^' | '%' | '&' | '/' | '('
       | ')' | '=' | '?' | '_' | ':' | ';' | '>' | '£' => true
    case _ => false
  }

  predicate IsUsShiftChar(c: char) {
    match c
    case 'A' | 'B' | 'C' | 'D' | 'E' | 'F' | 'G' | 'H' | 'I' | 'J' | 'K' | 'L'
       | 'M' | 'N' | 'O' | 'P' | 'Q' | 'R' | 'S' | 'T' | 'U' | 'V' | 'W' | 'X'
       | 'Y' | 'Z' | '!' | '@' | '#' | '$' | '%' | '^' | '&' | '*' | '(' | ')'
       | '_' | '+' | '{' | '}' | '|' | ':' | '"' | '<' | '>' | '?' | '~' => true
    case _ => false
  }

  /** Membership in the layout's AltGr set; the US set is empty. */
  predicate IsAltGrChar(layout: Layout, c: char) {
    match layout
    case TurkishQ => IsTurkishAltGrChar(c)
    case UsQwerty => false
  }

  predicate IsTurkishAltGrChar(c: char) {
    match c
    case '@' | '€' | '₺' | '~' | 'æ' | 'ß' | '´' | '`' | '\'' | '"' | '<' | '>'
       | '|' | '¬' | '½' | '#' | '$' | '{' | '[' | ']' | '}' => true
    case _ => false
  }

  /** The layout's `scancode_map` dictionary, keyed by single characters. */
  function ScancodeOf(layout: Layout, c: char): Option<int> {
    match layout
    case TurkishQ => TurkishScancode(c)
    case UsQwerty => UsScancode(c)
  }

  function TurkishScancode(c: char): Option<int> {
    match c
    case 'a' => Some(0x1e)  case 'b' => Some(0x30)  case 'c' => Some(0x2e)  case 'ç' => Some(0x2e)
    case 'd' => Some(0x20)  case 'e' => Some(0x12)  case 'f' => Some(0x21)  case 'g' => Some(0x22)
    case 'ğ' => Some(0x26)  case 'h' => Some(0x23)  case 'ı' => Some(0x17)  case 'i' => Some(0x17)
    case 'j' => Some(0x24)  case 'k' => Some(0x25)  case 'l' => Some(0x26)  case 'm' => Some(0x32)
    case 'n' => Some(0x31)  case 'o' => Some(0x18)  case 'ö' => Some(0x19)  case 'p' => Some(0x19)
    case 'r' => Some(0x13)  case 's' => Some(0x1f)  case 'ş' => Some(0x1f)  case 't' => Some(0x14)
    case 'u' => Some(0x16)  case 'ü' => Some(0x16)  case 'v' => Some(0x2f)  case 'y' => Some(0x15)
    case 'z' => Some(0x2c)  case '0' => Some(0x0b)  case '1' => Some(0x02)  case '2' => Some(0x03)
    case '3' => Some(0x04)  case '4' => Some(0x05)  case '5' => Some(0x06)  case '6' => Some(0x07)
    case '7' => Some(0x08)  case '8' => Some(0x09)  case '9' => Some(0x0a)  case '!' => Some(0x02)
    case '\'' => Some(0x28)  case '+' => Some(0x0d)  case '%' => Some(0x06)  case '&' => Some(0x07)
    case '/' => Some(0x08)  case '(' => Some(0x09)  case ')' => Some(0x0a)  case '=' => Some(0x0d)
    case '?' => Some(0x0d)  case '_' => Some(0x35)  case '-' => Some(0x0c)  case '.' => Some(0x34)
    case ':' => Some(0x33)  case ',' => Some(0x33)  case ';' => Some(0x33)  case '<' => Some(0x56)
    case '>' => Some(0x56)  case ' ' => Some(0x39)  case '\n' => Some(0x1c)
    case _ => None
  }

  function UsScancode(c: char): Option<int> {
    match c
    case 'a' => Some(0x1e)  case 'b' => Some(0x30)  case 'c' => Some(0x2e)  case 'd' => Some(0x20)
    case 'e' => Some(0x12)  case 'f' => Some(0x21)  case 'g' => Some(0x22)  case 'h' => Some(0x23)
    case 'i' => Some(0x17)  case 'j' => Some(0x24)  case 'k' => Some(0x25)  case 'l' => Some(0x26)
    case 'm' => Some(0x32)  case 'n' => Some(0x31)  case 'o' => Some(0x18)  case 'p' => Some(0x19)
    case 'q' => Some(0x10)  case 'r' => Some(0x13)  case 's' => Some(0x1f)  case 't' => Some(0x14)
    case 'u' => Some(0x16)  case 'v' => Some(0x2f)  case 'w' => Some(0x11)  case 'x' => Some(0x2d)
    case 'y' => Some(0x15)  case 'z' => Some(0x2c)  case '0' => Some(0x0b)  case '1' => Some(0x02)
    case '2' => Some(0x03)  case '3' => Some(0x04)  case '4' => Some(0x05)  case '5' => Some(0x06)
    case '6' => Some(0x07)  case '7' => Some(0x08)  case '8' => Some(0x09)  case '9' => Some(0x0a)
    case '!' => Some(0x02)  case '@' => Some(0x03)  case '#' => Some(0x04)  case '$' => Some(0x05)
    case '%' => Some(0x06)  case '^' => Some(0x07)  case '&' => Some(0x08)  case '*' => Some(0x09)
    case '(' => Some(0x0a)  case ')' => Some(0x0b)  case '-' => Some(0x0c)  case '_' => Some(0x0c)
    case '=' => Some(0x0d)  case '+' => Some(0x0d)  case '[' => Some(0x1a)  case '{' => Some(0x1a)
    case ']' => Some(0x1b)  case '}' => Some(0x1b)  case '\\' => Some(0x2b)  case '|' => Some(0x2b)
    case ';' => Some(0x27)  case ':' => Some(0x27)  case '\'' => Some(0x28)  case '"' => Some(0x28)
    case ',' => Some(0x33)  case '<' => Some(0x33)  case '.' => Some(0x34)  case '>' => Some(0x34)
    case '/' => Some(0x35)  case '?' => Some(0x35)  case '`' => Some(0x29)  case '~' => Some(0x29)
    case ' ' => Some(0x39)  case '\n' => Some(0x1c)
    case _ => None
  }

  /** Python's `str.lower()` on one character, exact for every character whose lower
      case is a key of either scancode map: ASCII capitals, the Turkish capitals
      Ç Ğ Ö Ş Ü, the Kelvin sign, and İ, whose lower case is two characters. Every
      other character is returned unchanged; its lookup fails either way. */
  function Lower(c: char): (s: string)
    ensures 1 <= |s| <= 2 && (|s| == 2 <==> c == 'İ')
    ensures forall k :: 0 <= k < |s| ==> !('A' <= s[k] <= 'Z')
    ensures c as int < 128 && !('A' <= c <= 'Z') ==> s == [c]
  {
    if 'A' <= c <= 'Z' then [(c as int + 32) as char]
    else if c == 'Ç' then "ç"
    else if c == 'Ğ' then "ğ"
    else if c == 'Ö' then "ö"
    else if c == 'Ş' then "ş"
    else if c == 'Ü' then "ü"
    else if c == '\U{212A}' then "k"
    else if c == 'İ' then "i\U{0307}"
    else [c]
  }

  /** Lowering undoes upper-casing on the ASCII letters: the capital of `d` lowers to `d`. */
  lemma LowerInvertsAsciiUpper(d: char)
    requires 'a' <= d <= 'z'
    ensures 'A' <= (d as int - 32) as char <= 'Z'
    ensures Lower((d as int - 32) as char) == [d]
  {
  }

  /** The Turkish capitals and the Kelvin sign lower to the letters the Turkish table keys on. */
  lemma LowerNonAsciiCapitals()
    ensures Lower('Ç') == "ç" && Lower('Ğ') == "ğ" && Lower('Ö') == "ö"
    ensures Lower('Ş') == "ş" && Lower('Ü') == "ü"
    ensures Lower('\U{212A}') == "k"
  {
  }

  /** An ASCII capital is typed with the key of its lower-case letter, and fails
      exactly when that letter has no key. */
  lemma CapitalPressesItsLetter(d: char, layout: Layout)
    requires 'a' <= d <= 'z'
    ensures var r := CharEvents((d as int - 32) as char, layout);
      && (r.Ok? <==> Scancode(layout, [d]).Some?)
      && (r.Err? ==> r.error == [d])
      && (r.Ok? ==> r.value[|r.value| / 2 - 1] == KeyPress(Scancode(layout, [d]).value, false))
  {
    LowerInvertsAsciiUpper(d);
  }

  /** `scancode_map[key]` where the key is a string: only one-character keys exist. */
  function Scancode(layout: Layout, key: string): Option<int> {
    if |key| == 1 then ScancodeOf(layout, key[0]) else None
  }

  datatype KeyKind = EnterKey | Shifted | AltGr | PlainKey

  /** The branch type_text takes for a character: newline first, then the Shift set,
      then the AltGr set. */
  function Classify(c: char, layout: Layout): (k: KeyKind)
    ensures k == EnterKey <==> c == '\n'
    ensures k == Shifted <==> c != '\n' && IsShiftChar(layout, c)
    ensures k == AltGr <==> c != '\n' && !IsShiftChar(layout, c) && IsAltGrChar(layout, c)
  {
    if c == '\n' then EnterKey
    else if IsShiftChar(layout, c) then Shifted
    else if IsAltGrChar(layout, c) then AltGr
    else PlainKey
  }

  /** An event as type_text sends it: by scancode, never as an extended key, and with
      no flag other than key-up. */
  predicate ByScancode(e: KeyEvent) {
    && e.flags & KeyeventfScancode == KeyeventfScancode
    && e.flags & KeyeventfExtendedKey == 0
    && e.flags & !(KeyeventfScancode | KeyeventfKeyUp) == 0
  }

  /** The events one character produces, or the key whose lookup raises KeyError
      (before any event for that character is sent). */
  function CharEvents(c: char, layout: Layout): (r: Result<seq<KeyEvent>, string>)
    ensures r.Err? ==> r.error == Lower(c) && Scancode(layout, Lower(c)).None?
    ensures c == '\n' ==> r.Ok?
    ensures c != '\n' ==> (r.Ok? <==> Scancode(layout, Lower(c)).Some?)
    ensures r.Ok? ==> Replay(r.value, []) == Some([])
    ensures r.Ok? ==> forall e :: e in r.value ==> ByScancode(e)
    ensures r.Ok? ==> |r.value| == (if Classify(c, layout) in {Shifted, AltGr} then 4 else 2)
    ensures r.Ok? ==> (r.value[|r.value| / 2 - 1] ==
                       KeyPress(if c == '\n' then EnterScancode else Scancode(layout, Lower(c)).value, false))
  {
    match Classify(c, layout)
    case EnterKey =>
      KeystrokesAreNested(EnterScancode, 0, []);
      Ok(KeyPressAndRelease(EnterScancode))
    case kind =>
      match Scancode(layout, Lower(c))
      case None => Err(Lower(c))
      case Some(sc) =>
        KeystrokesAreNested(sc, LeftShift, []);
        KeystrokesAreNested(sc, AltScancode, []);
        if kind == Shifted then Ok(KeyPressWithModifier(sc, LeftShift))
        else if kind == AltGr then Ok(KeyPressWithModifier(sc, AltScancode))
        else Ok(KeyPressAndRelease(sc))
  }

  /** The events sent, and the key of the KeyError that stopped typing, if any. */
  datatype Typing = Typing(events: seq<KeyEvent>, failure: Option<string>)

  /** The typing loop for any per-character stroke: characters in order, stopping at
      the first one whose stroke fails. */
  function TypeChars(text: string, stroke: char -> Result<seq<KeyEvent>, string>): Typing
    decreases |text|
  {
    if text == [] then Typing([], None)
    else match stroke(text[0])
      case Err(key) => Typing([], Some(key))
      case Ok(es) =>
        var rest := TypeChars(text[1..], stroke);
        Typing(es + rest.events, rest.failure)
  }

  /** Typing completes exactly when every character's stroke succeeds; otherwise the
      failure is the first failing character's. */
  lemma {:induction false} TypeCharsCompletes(text: string, stroke: char -> Result<seq<KeyEvent>, string>)
    ensures TypeChars(text, stroke).failure.None? <==> forall i :: 0 <= i < |text| ==> stroke(text[i]).Ok?
    ensures TypeChars(text, stroke).failure.Some? ==>
      exists i :: 0 <= i < |text| && stroke(text[i]).Err? && TypeChars(text, stroke).failure == Some(stroke(text[i]).error)
              && forall j :: 0 <= j < i ==> stroke(text[j]).Ok?
    decreases |text|
  {
    if text != [] && stroke(text[0]).Ok? {
      TypeCharsCompletes(text[1..], stroke);
      assert forall i :: 1 <= i < |text| ==> text[i] == text[1..][i - 1];
      if TypeChars(text, stroke).failure.Some? {
        var i :| 0 <= i < |text[1..]| && stroke(text[1..][i]).Err?
                 && TypeChars(text[1..], stroke).failure == Some(stroke(text[1..][i]).error)
                 && forall j :: 0 <= j < i ==> stroke(text[1..][j]).Ok?;
        assert text[i + 1] == text[1..][i];
        assert forall j :: 0 <= j < i + 1 ==> stroke(text[j]).Ok? by {
          forall j | 0 <= j < i + 1 ensures stroke(text[j]).Ok? {
            if j > 0 { assert text[j] == text[1..][j - 1]; }
          }
        }
      }
    }
  }

  /** Strokes that each release what they press give a typing that does so too. */
  lemma {:induction false} TypeCharsNested(text: string, stroke: char -> Result<seq<KeyEvent>, string>)
    requires forall c :: stroke(c).Ok? ==> Replay(stroke(c).value, []) == Some([])
    ensures Replay(TypeChars(text, stroke).events, []) == Some([])
    decreases |text|
  {
    if text != [] && stroke(text[0]).Ok? {
      TypeCharsNested(text[1..], stroke);
      ReplayAppend(stroke(text[0]).value, TypeChars(text[1..], stroke).events, []);
    }
  }

  /** Strokes that each send only scancode events give a typing that does so too. */
  lemma {:induction false} TypeCharsByScancode(text: string, stroke: char -> Result<seq<KeyEvent>, string>)
    requires forall c :: stroke(c).Ok? ==> forall e :: e in stroke(c).value ==> ByScancode(e)
    ensures forall e :: e in TypeChars(text, stroke).events ==> ByScancode(e)
    decreases |text|
  {
    if text != [] && stroke(text[0]).Ok? {
      TypeCharsByScancode(text[1..], stroke);
      assert TypeChars(text, stroke).events == stroke(text[0]).value + TypeChars(text[1..], stroke).events;
    }
  }

  /** Typing two strings one after the other is typing their concatenation, when the
      first one goes through. */
  lemma {:induction false} TypeCharsConcat(a: string, b: string, stroke: char -> Result<seq<KeyEvent>, string>)
    requires TypeChars(a, stroke).failure.None?
    ensures TypeChars(a + b, stroke) ==
      Typing(TypeChars(a, stroke).events + TypeChars(b, stroke).events, TypeChars(b, stroke).failure)
    decreases |a|
  {
    if a == [] {
      assert a + b == b;
    } else {
      var es := stroke(a[0]).value;
      var tail := TypeChars(a[1..], stroke);
      var tb := TypeChars(b, stroke);
      TypeCharsStep(a, stroke);
      TypeCharsConcat(a[1..], b, stroke);
      assert (a + b)[0] == a[0] && (a + b)[1..] == a[1..] + b;
      TypeCharsStep(a + b, stroke);
      ConcatAssoc(es, tail.events, tb.events);
    }
  }

  /** One character typed successfully, then the rest. */
  lemma TypeCharsStep(text: string, stroke: char -> Result<seq<KeyEvent>, string>)
    requires text != [] && stroke(text[0]).Ok?
    ensures TypeChars(text, stroke) ==
      Typing(stroke(text[0]).value + TypeChars(text[1..], stroke).events, TypeChars(text[1..], stroke).failure)
  {
  }

  /** The events of several keystrokes, one after the other. */
  function Flatten(parts: seq<seq<KeyEvent>>): seq<KeyEvent> {
    if parts == [] then [] else parts[0] + Flatten(parts[1..])
  }

  /** The strokes of every character of a text that types completely, in order. */
  function Strokes(text: string, stroke: char -> Result<seq<KeyEvent>, string>): (r: seq<seq<KeyEvent>>)
    requires forall i :: 0 <= i < |text| ==> stroke(text[i]).Ok?
    ensures |r| == |text| && forall i :: 0 <= i < |text| ==> r[i] == stroke(text[i]).value
  {
    seq(|text|, i requires 0 <= i < |text| && stroke(text[i]).Ok? => stroke(text[i]).value)
  }

  /** A text that types completely sends each character's stroke, in order, and
      nothing else. */
  lemma {:induction false} TypeCharsSendsEachChar(text: string, stroke: char -> Result<seq<KeyEvent>, string>)
    requires forall i :: 0 <= i < |text| ==> stroke(text[i]).Ok?
    ensures TypeChars(text, stroke) == Typing(Flatten(Strokes(text, stroke)), None)
    decreases |text|
  {
    if text != [] {
      TypeCharsStep(text, stroke);
      assert forall i :: 0 <= i < |text[1..]| ==> text[1..][i] == text[i + 1];
      TypeCharsSendsEachChar(text[1..], stroke);
      assert Strokes(text, stroke)[1..] == Strokes(text[1..], stroke);
    }
  }

  /** Typing stops at the first failing character: the events sent are those of the
      characters before it, and the failure is its own. */
  lemma {:induction false} TypeCharsStopsAt(text: string, stroke: char -> Result<seq<KeyEvent>, string>, k: nat)
    requires k < |text| && stroke(text[k]).Err?
    requires forall j :: 0 <= j < k ==> stroke(text[j]).Ok?
    ensures TypeChars(text, stroke) == Typing(TypeChars(text[..k], stroke).events, Some(stroke(text[k]).error))
    decreases k
  {
    if k > 0 {
      TypeCharsStep(text, stroke);
      assert forall j :: 0 <= j < k - 1 ==> text[1..][j] == text[j + 1];
      TypeCharsStopsAt(text[1..], stroke, k - 1);
      assert text[..k][0] == text[0] && text[..k][1..] == text[1..][..k - 1];
      TypeCharsStep(text[..k], stroke);
    }
  }

  /** type_text once the layout is known. The loop stops at the first character
      without a scancode; whatever was sent by then leaves no key held down. */
  function TypeText(text: string, layout: Layout): (r: Typing)
    ensures r.failure.None? <==> forall i :: 0 <= i < |text| ==> CharEvents(text[i], layout).Ok?
    ensures r.failure.None? <==>
      forall i :: 0 <= i < |text| ==> text[i] == '\n' || Scancode(layout, Lower(text[i])).Some?
    ensures r.failure.Some? ==>
      exists i :: 0 <= i < |text| && text[i] != '\n' && r.failure == Some(Lower(text[i]))
                  && Scancode(layout, Lower(text[i])).None?
                  && forall j :: 0 <= j < i ==> CharEvents(text[j], layout).Ok?
    ensures Replay(r.events, []) == Some([])
    ensures forall e :: e in r.events ==> ByScancode(e)
  {
    var stroke := c => CharEvents(c, layout);
    TypeCharsNested(text, stroke);
    TypeCharsByScancode(text, stroke);
    TypeCharsCompletes(text, stroke);
    TypeChars(text, stroke)
  }

  /** Typing is compositional: `type_text(a + b)` sends `a`'s events then `b`'s. */
  lemma TypeTextConcat(a: string, b: string, layout: Layout)
    requires TypeText(a, layout).failure.None?
    ensures TypeText(a + b, layout) ==
      Typing(TypeText(a, layout).events + TypeText(b, layout).events, TypeText(b, layout).failure)
  {
    TypeCharsConcat(a, b, c => CharEvents(c, layout));
  }

  /** A text that types completely sends each character's keystroke, in order: a
      press and release, or one wrapped in Shift or Alt. */
  lemma TypeTextSendsEachChar(text: string, layout: Layout)
    requires TypeText(text, layout).failure.None?
    ensures forall i :: 0 <= i < |text| ==> CharEvents(text[i], layout).Ok?
    ensures TypeText(text, layout).events == Flatten(Strokes(text, c => CharEvents(c, layout)))
  {
    TypeCharsSendsEachChar(text, c => CharEvents(c, layout));
  }

  /** type_text stops at the first character without a scancode: it has sent exactly
      the keystrokes of the characters before it, and reports that character's key. */
  lemma TypeTextStopsAtFirstGap(text: string, layout: Layout, k: nat)
    requires k < |text| && CharEvents(text[k], layout).Err?
    requires forall j :: 0 <= j < k ==> CharEvents(text[j], layout).Ok?
    ensures TypeText(text, layout).failure == Some(Lower(text[k]))
    ensures TypeText(text, layout).events == Flatten(Strokes(text[..k], c => CharEvents(c, layout)))
  {
    var stroke := c => CharEvents(c, layout);
    TypeCharsStopsAt(text, stroke, k);
    assert forall j :: 0 <= j < k ==> text[..k][j] == text[j];
    TypeCharsSendsEachChar(text[..k], stroke);
  }

  /** The US layout never uses AltGr. */
  lemma UsNeverUsesAltGr(c: char)
    ensures Classify(c, UsQwerty) != AltGr
  {
  }

  /** A modified character is typed as modifier down, key down, key up, modifier up. */
  lemma ModifiedKeyOrder(c: char, layout: Layout)
    requires Classify(c, layout) in {Shifted, AltGr} && CharEvents(c, layout).Ok?
    ensures var es := CharEvents(c, layout).value;
      var modifier := if Classify(c, layout) == Shifted then LeftShift else AltScancode;
      && es[0] == KeyPress(modifier, false) && es[3] == KeyRelease(modifier, false)
      && !es[1].IsRelease() && es[2].IsRelease() && es[1].scancode == es[2].scancode
  {
  }

  /** Every US Shift character has a scancode through its lower case. */
  lemma UsShiftCharsAreTypeable(c: char)
    requires IsUsShiftChar(c)
    ensures CharEvents(c, UsQwerty).Ok?
  {
  }

  /** In the Turkish layout `"`, `£` and `^` are Shift characters without a
      scancode: typing them raises KeyError. */
  lemma TurkishShiftGaps(c: char)
    requires c == '"' || c == '£' || c == '^'
    ensures Classify(c, TurkishQ) == Shifted && CharEvents(c, TurkishQ).Err?
  {
    assert IsTurkishShiftChar(c);
    assert Lower(c) == [c];
    assert TurkishScancode(c).None?;
  }

  /** In the Turkish layout the AltGr characters `@ # $ { } €`, among others, have no
      scancode: typing them raises KeyError. */
  lemma TurkishAltGrGaps(c: char)
    requires c in {'@', '#', '$', '{', '}', '€'}
    ensures Classify(c, TurkishQ) == AltGr && CharEvents(c, TurkishQ).Err?
  {
    assert !IsTurkishShiftChar(c) && IsTurkishAltGrChar(c);
    assert Lower(c) == [c];
    assert Scancode(TurkishQ, Lower(c)).None?;
  }

  /** In the Turkish layout `q`, `w` and `x`, in either case, are plain keys without
      a scancode. */
  lemma TurkishPlainGaps(c: char)
    requires c in {'q', 'w', 'x', 'Q', 'W', 'X'}
    ensures Classify(c, TurkishQ) == PlainKey && CharEvents(c, TurkishQ).Err?
  {
    assert !IsTurkishShiftChar(c) && !IsTurkishAltGrChar(c);
    assert Lower(c) in {"q", "w", "x"};
    assert TurkishScancode(Lower(c)[0]).None?;
  }

  /** `İ` lowers to two characters, which no table has as a key. */
  lemma DottedCapitalGap(layout: Layout)
    ensures CharEvents('İ', layout) == Err("i\U{0307}")
  {
  }
}

=== FILE: overlap.dfy ===
/** The overlap test between two detected matches (utils.py, is_significant_overlap). */
module Overlap {
  import opened Common

  /** A match tuple `(x, y, width, height, confidence)`, confidence in hundredths.
      The detector stores the match centre in `x, y`, but the overlap test reads
      them as the top-left corner of a `width` by `height` box. */
  datatype Match = Match(x: int, y: int, width: Pos, height: Pos, confidence: int)

  /** The default overlap threshold 0.7, as the exact fraction 7/10. */
  const ThresholdNumerator := 7
  const ThresholdDenominator := 10

  /** Pixel `p` lies in the half-open span `[start, start + len)`. */
  predicate InSpan(p: int, start: int, len: int) {
    start <= p < start + len
  }

  /** Length of the intersection of two spans: `max(0, min(a+la, b+lb) - max(a, b))`.
      The intersection is exactly the span of that length starting at `max(a, b)`. */
  function SpanOverlap(a: int, la: int, b: int, lb: int): (r: nat)
    ensures forall p :: InSpan(p, a, la) && InSpan(p, b, lb) <==> InSpan(p, Max(a, b), r)
    ensures la >= 0 ==> r <= la
    ensures lb >= 0 ==> r <= lb
  {
    var d := Min(a + la, b + lb) - Max(a, b);
    if d > 0 then d else 0
  }

  function Area(m: Match): (r: int)
    ensures r > 0
  {
    m.width * m.height
  }

  /** `overlap_x * overlap_y`: the shared pixels, never more than either box holds. */
  function OverlapArea(a: Match, b: Match): (r: nat)
    ensures r <= Area(a) && r <= Area(b)
  {
    var ox := SpanOverlap(a.x, a.width, b.x, b.width);
    var oy := SpanOverlap(a.y, a.height, b.y, b.height);
    MulMonotone(ox, a.width, oy);
    MulMonotone(oy, a.height, a.width);
    MulMonotone(ox, b.width, oy);
    MulMonotone(oy, b.height, b.width);
    ox * oy
  }

  /** `overlap_area / min_area > 0.7`, cleared of the division (min_area > 0). Only
      boxes that intersect in both directions can overlap significantly. */
  predicate IsSignificantOverlap(a: Match, b: Match): (r: bool)
    ensures r ==> a.x < b.x + b.width && b.x < a.x + a.width
    ensures r ==> a.y < b.y + b.height && b.y < a.y + a.height
  {
    ThresholdDenominator * OverlapArea(a, b) > ThresholdNumerator * Min(Area(a), Area(b))
  }

  /** The test does not depend on argument order. */
  lemma OverlapSymmetric(a: Match, b: Match)
    ensures IsSignificantOverlap(a, b) <==> IsSignificantOverlap(b, a)
  {
    assert SpanOverlap(a.x, a.width, b.x, b.width) == SpanOverlap(b.x, b.width, a.x, a.width);
    assert SpanOverlap(a.y, a.height, b.y, b.height) == SpanOverlap(b.y, b.height, a.y, a.height);
  }

  /** The overlap area is zero exactly when the boxes are apart in x or in y,
      and then the overlap is never significant. */
  lemma ZeroOverlapIffApart(a: Match, b: Match)
    ensures OverlapArea(a, b) == 0 <==>
      (a.x + a.width <= b.x || b.x + b.width <= a.x || a.y + a.height <= b.y || b.y + b.height <= a.y)
    ensures OverlapArea(a, b) == 0 ==> !IsSignificantOverlap(a, b)
  {
    var ox := SpanOverlap(a.x, a.width, b.x, b.width);
    var oy := SpanOverlap(a.y, a.height, b.y, b.height);
    assert OverlapArea(a, b) == 0 <==> ox == 0 || oy == 0;
  }

  /** A box overlaps itself with ratio 1. */
  lemma SelfOverlapSignificant(a: Match)
    ensures IsSignificantOverlap(a, a)
  {
    assert OverlapArea(a, a) == Area(a);
  }

  /** A box lying inside another overlaps it with ratio 1, whichever is named first. */
  lemma ContainedOverlapSignificant(outer: Match, inner: Match)
    requires outer.x <= inner.x && inner.x + inner.width <= outer.x + outer.width
    requires outer.y <= inner.y && inner.y + inner.height <= outer.y + outer.height
    ensures IsSignificantOverlap(outer, inner) && IsSignificantOverlap(inner, outer)
  {
    assert OverlapArea(outer, inner) == Area(inner);
    assert Area(inner) <= Area(outer) by {
      MulMonotone(inner.width, outer.width, inner.height);
      MulMonotone(inner.height, outer.height, outer.width);
    }
    OverlapSymmetric(outer, inner);
  }

  /** Moving both boxes by the same offset leaves the test unchanged; so reading
      centres as corners is harmless for boxes of one template size. */
  lemma OverlapTranslationInvariant(a: Match, b: Match, dx: int, dy: int)
    ensures OverlapArea(a.(x := a.x + dx, y := a.y + dy), b.(x := b.x + dx, y := b.y + dy)) == OverlapArea(a, b)
    ensures IsSignificantOverlap(a.(x := a.x + dx, y := a.y + dy), b.(x := b.x + dx, y := b.y + dy))
        <==> IsSignificantOverlap(a, b)
  {
  }

  /** A ratio of exactly 7/10 is not significant: the comparison is strict. */
  lemma SevenTenthsNotSignificant()
    ensures OverlapArea(Match(0, 0, 10, 10, 70), Match(3, 0, 10, 10, 70)) == 70
    ensures !IsSignificantOverlap(Match(0, 0, 10, 10, 70), Match(3, 0, 10, 10, 70))
    ensures IsSignificantOverlap(Match(0, 0, 10, 10, 70), Match(2, 0, 10, 10, 70))
  {
  }

  /** Two 30x30 boxes offset by (5, 5) overlap by 625/900, below 0.7: both survive deduplication. */
  lemma OffsetByFiveNotSignificant()
    ensures !IsSignificantOverlap(Match(100, 100, 30, 30, 80), Match(105, 105, 30, 30, 75))
  {
    assert SpanOverlap(100, 30, 105, 30) == 25;
  }
}

=== FILE: reply_parser.dfy ===
/** Parsing the vision model's `"X,Y"` reply into a screen point
    (metin2_stone_bot.py, SimpleStoneBot.extract_coordinates). */
module ReplyParser {
  import opened Common

  /** `str.isspace()` on the ASCII range: tab, line feed, vertical tab, form feed,
      carriage return, the four separator controls 0x1c-0x1f, and space. */
  predicate IsSpace(c: char) {
    c == ' ' || '\t' <= c <= '\r' || '\U{1c}' <= c <= '\U{1f}'
  }

  predicate IsDigit(c: char) {
    '0' <= c <= '9'
  }

  /** Number of leading whitespace characters. */
  function LeadingSpaces(s: string): (n: nat)
    ensures n <= |s|
    ensures forall k :: 0 <= k < n ==> IsSpace(s[k])
    ensures n < |s| ==> !IsSpace(s[n])
  {
    if s == [] || !IsSpace(s[0]) then 0 else 1 + LeadingSpaces(s[1..])
  }

  /** Number of trailing whitespace characters. */
  function TrailingSpaces(s: string): (n: nat)
    ensures n <= |s|
    ensures forall k :: |s| - n <= k < |s| ==> IsSpace(s[k])
    ensures n < |s| ==> !IsSpace(s[|s| - n - 1])
  {
    if s == [] || !IsSpace(s[|s| - 1]) then 0 else 1 + TrailingSpaces(s[..|s| - 1])
  }

  /** `str.strip()`: drop leading and trailing whitespace. */
  function Strip(s: string): (r: string)
    ensures r == [] || (!IsSpace(r[0]) && !IsSpace(r[|r| - 1]))
    ensures forall c :: c in r ==> c in s
  {
    var i := LeadingSpaces(s);
    var j := TrailingSpaces(s[i..]);
    s[i..][..|s[i..]| - j]
  }

  /** `str.split(",")`: every comma separates two fields, empty fields included. */
  function Split(s: string): (parts: seq<string>)
    ensures |parts| >= 1
    ensures forall i :: 0 <= i < |parts| ==> ',' !in parts[i]
    ensures |parts| >= 2 <==> ',' in s
  {
    if s == [] then [[]]
    else
      var rest := Split(s[1..]);
      if s[0] == ',' then [[]] + rest
      else [[s[0]] + rest[0]] + rest[1..]
  }

  /** `",".join(parts)` */
  function Join(parts: seq<string>): string
    requires |parts| >= 1
  {
    if |parts| == 1 then parts[0] else parts[0] + "," + Join(parts[1..])
  }

  /** Splitting loses nothing: joining the fields back gives the reply. */
  lemma {:induction false} JoinSplit(s: string)
    ensures Join(Split(s)) == s
  {
    if s != [] {
      JoinSplit(s[1..]);
      var rest := Split(s[1..]);
      if s[0] == ',' {
        JoinEmptyFirst(rest);
      } else {
        JoinExtendFirst(s[0], rest);
      }
      assert s == [s[0]] + s[1..];
    }
  }

  lemma JoinEmptyFirst(rest: seq<string>)
    requires |rest| >= 1
    ensures Join([[]] + rest) == [','] + Join(rest)
  {
    assert ([[]] + rest)[1..] == rest;
  }

  lemma JoinExtendFirst(c: char, rest: seq<string>)
    requires |rest| >= 1
    ensures Join([[c] + rest[0]] + rest[1..]) == [c] + Join(rest)
  {
    var parts := [[c] + rest[0]] + rest[1..];
    if |rest| > 1 {
      var tail := Join(rest[1..]);
      assert parts[1..] == rest[1..];
      assert Join(parts) == ([c] + rest[0]) + [','] + tail;
      assert Join(rest) == rest[0] + [','] + tail;
      ConcatAssoc([c], rest[0], [','] + tail);
      ConcatAssoc([c] + rest[0], [','], tail);
      ConcatAssoc(rest[0], [','], tail);
    } else {
      assert Join(parts) == [c] + rest[0];
    }
  }

  /** The first field is everything before the first comma. */
  lemma {:induction false} SplitAtFirstComma(a: string, b: string)
    requires ',' !in a
    ensures Split(a + "," + b) == [a] + Split(b)
  {
    if a == [] {
      assert a + "," + b == [','] + b;
      assert ([','] + b)[1..] == b;
    } else {
      assert (a + "," + b)[1..] == a[1..] + "," + b;
      SplitAtFirstComma(a[1..], b);
      assert [a[0]] + a[1..] == a;
    }
  }

  /** Value of a run of ASCII digits, most significant first (0 for the empty run). */
  function DigitsValue(ds: string): (n: nat)
    requires forall k :: 0 <= k < |ds| ==> IsDigit(ds[k])
  {
    if ds == [] then 0
    else
      assert IsDigit(ds[|ds| - 1]);
      DigitsValue(ds[..|ds| - 1]) * 10 + (ds[|ds| - 1] as int - '0' as int)
  }

  predicate AllDigits(ds: string) {
    forall k :: 0 <= k < |ds| ==> IsDigit(ds[k])
  }

  /** A sign or a digit, then digits only, with at least one digit in all. */
  predicate IsNumeral(s: string) {
    && |s| >= 1
    && (IsDigit(s[0]) || (|s| >= 2 && (s[0] == '+' || s[0] == '-')))
    && AllDigits(s[1..])
  }

  /** `int(s)` on an already stripped field: an optional sign and at least one ASCII
      digit; anything else raises ValueError, modelled as `None`. */
  function ParseInt(s: string): (r: Option<int>)
    ensures r.Some? <==> IsNumeral(s)
    ensures r.Some? && r.value < 0 ==> s[0] == '-'
    ensures r.Some? ==>
              r.value == (if s[0] == '-' then -(DigitsValue(s[1..]) as int)
                          else if s[0] == '+' then DigitsValue(s[1..])
                          else DigitsValue(s))
  {
    if s == [] then None
    else
      var negative := s[0] == '-';
      var digits := if s[0] == '+' || s[0] == '-' then s[1..] else s;
      if digits != [] && AllDigits(digits) then
        var magnitude: int := DigitsValue(digits);
        Some(if negative then -magnitude else magnitude)
      else None
  }

  /** Decimal digits of a natural number, no leading zeros. */
  function ShowNat(n: nat): (s: string)
    ensures s != [] && AllDigits(s)
  {
    var d := [('0' as int + n % 10) as char];
    if n < 10 then d else ShowNat(n / 10) + d
  }

  /** `str(n)` */
  function Show(n: int): string {
    if n < 0 then "-" + ShowNat(-n) else ShowNat(n)
  }

  lemma {:induction false} DigitsOfShowNat(n: nat)
    ensures DigitsValue(ShowNat(n)) == n
  {
    var s := ShowNat(n);
    if n >= 10 {
      DigitsOfShowNat(n / 10);
      assert s[..|s| - 1] == ShowNat(n / 10);
    }
  }

  /** Parsing undoes printing: `int(str(n)) == n`. */
  lemma ParseShow(n: int)
    ensures ParseInt(Show(n)) == Some(n)
  {
    if n < 0 {
      var digits := ShowNat(-n);
      DigitsOfShowNat(-n);
      assert Show(n) == ['-'] + digits;
      assert Show(n)[1..] == digits;
    } else {
      var digits := ShowNat(n);
      DigitsOfShowNat(n);
      assert IsDigit(digits[0]);
    }
  }

  /** A run of `n` zero digits. */
  function Zeros(n: nat): (z: string)
    ensures |z| == n && AllDigits(z)
  {
    seq(n, _ => '0')
  }

  lemma {:induction false} ZerosValue(n: nat)
    ensures DigitsValue(Zeros(n)) == 0
  {
    if n > 0 {
      ZerosValue(n - 1);
      assert Zeros(n)[..n - 1] == Zeros(n - 1);
    }
  }

  /** Leading zeros do not change the value of a run of digits. */
  lemma {:induction false} LeadingZerosValue(n: nat, ds: string)
    requires AllDigits(ds)
    ensures AllDigits(Zeros(n) + ds)
    ensures DigitsValue(Zeros(n) + ds) == DigitsValue(ds)
    decreases |ds|
  {
    var s := Zeros(n) + ds;
    if ds == [] {
      assert s == Zeros(n);
      ZerosValue(n);
    } else {
      LeadingZerosValue(n, ds[..|ds| - 1]);
      assert s[..|s| - 1] == Zeros(n) + ds[..|ds| - 1];
      assert s[|s| - 1] == ds[|ds| - 1];
    }
  }

  /** `int()` of an optional sign, any number of leading zeros and the digits of `n`
      is `n` with that sign. */
  lemma ParseSignedPadded(sign: string, zeros: nat, n: nat)
    requires sign == "" || sign == "+" || sign == "-"
    ensures ParseInt(sign + Zeros(zeros) + ShowNat(n)) == Some(if sign == "-" then -(n as int) else n)
  {
    var body := Zeros(zeros) + ShowNat(n);
    var s := sign + Zeros(zeros) + ShowNat(n);
    Common.ConcatAssoc(sign, Zeros(zeros), ShowNat(n));
    LeadingZerosValue(zeros, ShowNat(n));
    DigitsOfShowNat(n);
    assert IsDigit(body[0]);
    if sign != "" {
      assert s[0] == sign[0] && s[1..] == body;
      assert IsNumeral(s);
    } else {
      assert s == body;
    }
  }

  /** The reply's coordinates; the source returns `(None, None)` on every failure. */
  datatype Coords = Coords(x: Option<int>, y: Option<int>)

  const NoCoords := Coords(None, None)

  /** The pair read from the first two fields: both integers and on the screen (both
      bounds inclusive), or `(None, None)`. */
  function ReadPair(first: string, second: string, screenWidth: int, screenHeight: int): (r: Coords)
    ensures r.x.Some? <==> r.y.Some?
    ensures r.x.Some? <==>
      && ParseInt(Strip(first)).Some? && 0 <= ParseInt(Strip(first)).value <= screenWidth
      && ParseInt(Strip(second)).Some? && 0 <= ParseInt(Strip(second)).value <= screenHeight
    ensures r.x.Some? ==> r.x == ParseInt(Strip(first)) && r.y == ParseInt(Strip(second))
    ensures r.x.None? ==> r == NoCoords
  {
    match (ParseInt(Strip(first)), ParseInt(Strip(second)))
    case (Some(x), Some(y)) =>
      if 0 <= x <= screenWidth && 0 <= y <= screenHeight then Coords(Some(x), Some(y)) else NoCoords
    case _ => NoCoords
  }

  /** extract_coordinates, with the screen size as parameters. */
  function ExtractCoordinates(response: Option<string>, screenWidth: int, screenHeight: int): (r: Coords)
    ensures r.x.Some? <==> r.y.Some?
    ensures r.x.Some? ==> 0 <= r.x.value <= screenWidth && 0 <= r.y.value <= screenHeight
    ensures response.None? || response == Some("") || response == Some("NONE") ==> r == NoCoords
    ensures response.Some? && ',' !in response.value ==> r == NoCoords
  {
    match response
    case None => NoCoords
    case Some(text) =>
      if text == [] || text == "NONE" then NoCoords
      else if ',' !in text then NoCoords
      else
        var parts := Split(text);
        ReadPair(parts[0], parts[1], screenWidth, screenHeight)
  }

  predicate AllSpaces(s: string) {
    forall k :: 0 <= k < |s| ==> IsSpace(s[k])
  }

  lemma StripPadded(pre: string, body: string, post: string)
    requires AllSpaces(pre) && AllSpaces(post)
    requires body != [] && !IsSpace(body[0]) && !IsSpace(body[|body| - 1])
    ensures Strip(pre + body + post) == body
  {
    var s := pre + body + post;
    var i := LeadingSpaces(s);
    assert s[|pre|] == body[0];
    assert i == |pre|;
    var t := s[i..];
    assert t == body + post;
    var j := TrailingSpaces(t);
    assert t[|body| - 1] == body[|body| - 1];
    assert j == |post|;
    assert t[..|t| - j] == body;
  }

  lemma ShowHasNoPadding(n: int)
    ensures var s := Show(n); s != [] && !IsSpace(s[0]) && !IsSpace(s[|s| - 1]) && ',' !in s
  {
    var d := ShowNat(if n < 0 then -n else n);
    assert IsDigit(d[0]) && IsDigit(d[|d| - 1]);
    assert forall k :: 0 <= k < |d| ==> d[k] != ',' by {
      forall k | 0 <= k < |d| ensures d[k] != ',' { assert IsDigit(d[k]); }
    }
  }

  /** The first field of `a + b`, when `a` holds no comma and `b` ends the field. */
  lemma FirstField(a: string, b: string)
    requires ',' !in a
    requires b == [] || b[0] == ','
    ensures Split(a + b)[0] == a
  {
    if b == [] {
      JoinSplit(a);
      assert a + b == a;
    } else {
      assert b == "," + b[1..];
      assert a + b == a + "," + b[1..];
      SplitAtFirstComma(a, b[1..]);
    }
  }

  /** A reply whose first two fields are `first` and `second` is read from those
      two fields alone: anything after a second comma is ignored. */
  lemma TwoFields(first: string, second: string, extra: string, screenWidth: int, screenHeight: int)
    requires ',' !in first && ',' !in second
    requires extra == [] || extra[0] == ','
    ensures ExtractCoordinates(Some(first + "," + second + extra), screenWidth, screenHeight) ==
            ReadPair(first, second, screenWidth, screenHeight)
  {
    var reply := first + "," + (second + extra);
    assert first + "," + second + extra == reply;
    SplitAtFirstComma(first, second + extra);
    FirstField(second, extra);
    assert reply[|first|] == ',';
    assert Split(reply)[0] == first && Split(reply)[1] == second;
  }

  /** A first or second field that is not an integer gives `(None, None)`, whatever
      the other field holds. */
  lemma UnparsableFieldRejected(first: string, second: string, extra: string,
                                screenWidth: int, screenHeight: int)
    requires ',' !in first && ',' !in second
    requires extra == [] || extra[0] == ','
    requires ParseInt(Strip(first)).None? || ParseInt(Strip(second)).None?
    ensures ExtractCoordinates(Some(first + "," + second + extra), screenWidth, screenHeight) == NoCoords
  {
    TwoFields(first, second, extra, screenWidth, screenHeight);
  }

  /** A printed integer with whitespace around it is a comma-free field that parses
      back to the integer. */
  lemma PaddedShowParses(n: int, pre: string, post: string)
    requires AllSpaces(pre) && AllSpaces(post)
    ensures ParseInt(Strip(pre + Show(n) + post)) == Some(n)
    ensures ',' !in pre + Show(n) + post
  {
    ShowHasNoPadding(n);
    NoCommaInSpaces(pre);
    NoCommaInSpaces(post);
    StripPadded(pre, Show(n), post);
    ParseShow(n);
  }

  /** A well-formed reply `"X,Y"`, with any whitespace around either number and any
      further fields after a second comma, yields `(X, Y)` exactly when the point lies
      on the screen (both bounds inclusive), and `(None, None)` otherwise. */
  lemma FormattedReplyRoundTrip(x: int, y: int, p1: string, p2: string, p3: string, p4: string,
                                extra: string, screenWidth: int, screenHeight: int)
    requires AllSpaces(p1) && AllSpaces(p2) && AllSpaces(p3) && AllSpaces(p4)
    requires extra == [] || extra[0] == ','
    ensures var reply := (p1 + Show(x) + p2) + "," + (p3 + Show(y) + p4) + extra;
      ExtractCoordinates(Some(reply), screenWidth, screenHeight) ==
        if 0 <= x <= screenWidth && 0 <= y <= screenHeight then Coords(Some(x), Some(y)) else NoCoords
  {
    PaddedShowParses(x, p1, p2);
    PaddedShowParses(y, p3, p4);
    TwoFields(p1 + Show(x) + p2, p3 + Show(y) + p4, extra, screenWidth, screenHeight);
  }

  /** Printed integers survive stripping and parsing. */
  lemma ShowParsesStripped(n: int)
    ensures ParseInt(Strip(Show(n))) == Some(n)
    ensures ',' !in Show(n)
  {
    ShowHasNoPadding(n);
    StripPadded([], Show(n), []);
    assert [] + Show(n) + [] == Show(n);
    ParseShow(n);
  }

  /** The plain reply `"X,Y"` is read back as `(X, Y)` when on screen. */
  lemma PlainReplyRoundTrip(x: int, y: int, screenWidth: int, screenHeight: int)
    ensures ExtractCoordinates(Some(Show(x) + "," + Show(y)), screenWidth, screenHeight) ==
      if 0 <= x <= screenWidth && 0 <= y <= screenHeight then Coords(Some(x), Some(y)) else NoCoords
  {
    ShowParsesStripped(x);
    ShowParsesStripped(y);
    TwoFields(Show(x), Show(y), [], screenWidth, screenHeight);
    assert Show(x) + "," + Show(y) + [] == Show(x) + "," + Show(y);
  }

  /** The plain reply `"X,Y"` has nothing to strip. */
  lemma PlainReplyIsStripped(x: int, y: int)
    ensures Strip(Show(x) + "," + Show(y)) == Show(x) + "," + Show(y)
    ensures Show(x) + "," + Show(y) != []
  {
    var text := Show(x) + "," + Show(y);
    ShowHasNoPadding(x);
    ShowHasNoPadding(y);
    assert text[0] == Show(x)[0] && text[|text| - 1] == Show(y)[|Show(y)| - 1];
    StripPadded([], text, []);
    assert [] + text + [] == text;
  }

  lemma NoCommaInSpaces(s: string)
    requires AllSpaces(s)
    ensures ',' !in s
  {
  }
}

=== FILE: stone_bot.dfy ===
/** The request quota and the main loop of the stone bot (metin2_stone_bot.py,
    SimpleStoneBot.analyze_screen and run_basic_loop). The screenshot, the PNG and
    base64 encoding, and the call to the vision model are outside the model: each
    cycle's outcome is given as data. */
module StoneBot {
  import opened Common
  import opened ReplyParser

  /** MAX_DAILY_REQUESTS */
  const MaxDailyRequests: nat := 500

  /** What the model call produced: it raised, it came back without a candidate
      (or with a candidate whose text is missing, which raises after the request
      is counted), or it answered with text. */
  datatype Reply = Raised | NoContent | Answer(text: string)

  /** The request counter after the call, and the stripped answer if there was one. */
  datatype Analysis = Analysis(count: nat, response: Option<string>)

  /** analyze_screen: refuse at the quota, give up without charge when the image
      cannot be encoded or the call raises, otherwise charge one request. */
  function AnalyzeScreen(count: nat, encodeOk: bool, reply: Reply): (r: Analysis)
    ensures count >= MaxDailyRequests ==> r == Analysis(count, None)
    ensures r.count == count || r.count == count + 1
    ensures r.count == count + 1 <==> count < MaxDailyRequests && encodeOk && !reply.Raised?
    ensures r.response.Some? <==> r.count == count + 1 && reply.Answer?
    ensures r.response.Some? ==> r.response.value == Strip(reply.text)
  {
    if count >= MaxDailyRequests then Analysis(count, None)
    else if !encodeOk then Analysis(count, None)
    else match reply
      case Raised => Analysis(count, None)
      case NoContent => Analysis(count + 1, None)
      case Answer(text) => Analysis(count + 1, Some(Strip(text)))
  }

  /** The call never takes the counter past the quota once it is at or below it. */
  lemma AnalyzeKeepsQuota(count: nat, encodeOk: bool, reply: Reply)
    requires count <= MaxDailyRequests
    ensures AnalyzeScreen(count, encodeOk, reply).count <= MaxDailyRequests
  {
  }

  /** One pass of the loop: the user pressed Ctrl+C, or a screenshot was attempted. */
  datatype Cycle = Cycle(screenshotOk: bool, encodeOk: bool, reply: Reply) | Interrupt

  datatype StopReason = LimitReached | Interrupted | InputExhausted

  /** Where the loop ended: the final counter, the points clicked in order, and why. */
  datatype Session = Session(count: nat, clicks: seq<Point>, reason: StopReason)

  /** The parse-and-click step for a non-empty answer: the on-screen point the
      reply names, if any. */
  function ClickAt(response: string, screenWidth: int, screenHeight: int): (p: Option<Point>)
    ensures var c := ExtractCoordinates(Some(response), screenWidth, screenHeight);
      && (p.Some? <==> c.x.Some? && c.y.Some?)
      && (p.Some? ==> p.value == Point(c.x.value, c.y.value))
    ensures p.Some? ==> 0 <= p.value.x <= screenWidth && 0 <= p.value.y <= screenHeight
  {
    match ExtractCoordinates(Some(response), screenWidth, screenHeight)
    case Coords(Some(x), Some(y)) => Some(Point(x, y))
    case _ => None
  }

  /** A stripped answer `"X,Y"` naming a point on the screen is clicked there. */
  lemma FormattedAnswerIsClicked(x: int, y: int, screenWidth: int, screenHeight: int)
    requires 0 <= x <= screenWidth && 0 <= y <= screenHeight
    ensures ClickAt(Show(x) + "," + Show(y), screenWidth, screenHeight) == Some(Point(x, y))
  {
    PlainReplyRoundTrip(x, y, screenWidth, screenHeight);
  }

  /** Every click a step can make is on the screen. */
  ghost predicate OnScreen(click: string -> Option<Point>, screenWidth: int, screenHeight: int) {
    forall r :: click(r).Some? ==> 0 <= click(r).value.x <= screenWidth && 0 <= click(r).value.y <= screenHeight
  }

  /** run_basic_loop, driven by a finite script of cycle outcomes, for any
      parse-and-click step `click`. An answer that strips to the empty string counts
      as a failed analysis, as `not response` does. */
  function RunLoop(count: nat, cycles: seq<Cycle>, click: string -> Option<Point>,
                   screenWidth: int, screenHeight: int): (s: Session)
    requires OnScreen(click, screenWidth, screenHeight)
    ensures s.count >= count
    ensures s.count <= Max(count, MaxDailyRequests)
    ensures s.count - count <= |cycles|
    ensures |s.clicks| <= s.count - count
    ensures forall i :: 0 <= i < |s.clicks| ==>
      0 <= s.clicks[i].x <= screenWidth && 0 <= s.clicks[i].y <= screenHeight
    ensures s.reason == LimitReached <==> s.count >= MaxDailyRequests
    ensures s.reason == InputExhausted ==> s.count < MaxDailyRequests
    decreases |cycles|
  {
    if count >= MaxDailyRequests then Session(count, [], LimitReached)
    else if cycles == [] then Session(count, [], InputExhausted)
    else match cycles[0]
      case Interrupt => Session(count, [], Interrupted)
      case Cycle(screenshotOk, encodeOk, reply) =>
        if !screenshotOk then RunLoop(count, cycles[1..], click, screenWidth, screenHeight)
        else
          var a := AnalyzeScreen(count, encodeOk, reply);
          var rest := RunLoop(a.count, cycles[1..], click, screenWidth, screenHeight);
          if a.response.None? || a.response.value == [] then rest
          else match click(a.response.value)
            case None => rest
            case Some(p) => rest.(clicks := [p] + rest.clicks)
  }

  /** The bot's loop: the step parses the answer with extract_coordinates. */
  function RunBasicLoop(count: nat, cycles: seq<Cycle>, screenWidth: int, screenHeight: int): (s: Session)
    ensures s.count <= Max(count, MaxDailyRequests)
    ensures |s.clicks| <= s.count - count
    ensures forall i :: 0 <= i < |s.clicks| ==>
      0 <= s.clicks[i].x <= screenWidth && 0 <= s.clicks[i].y <= screenHeight
  {
    RunLoop(count, cycles, r => ClickAt(r, screenWidth, screenHeight), screenWidth, screenHeight)
  }

  /** Some cycle of the script answered with text that, stripped, the step clicks at `p`. */
  ghost predicate ClickedFromAnswer(p: Point, cycles: seq<Cycle>, click: string -> Option<Point>) {
    exists j :: 0 <= j < |cycles| && cycles[j].Cycle? && cycles[j].reply.Answer? &&
      click(Strip(cycles[j].reply.text)) == Some(p)
  }

  /** Every point the loop clicks is the step's point for the stripped text of one of
      the script's answers: nothing is clicked that no reply named. */
  lemma {:induction false} ClicksComeFromAnswers(count: nat, cycles: seq<Cycle>, click: string -> Option<Point>,
                                                 screenWidth: int, screenHeight: int)
    requires OnScreen(click, screenWidth, screenHeight)
    ensures forall p :: p in RunLoop(count, cycles, click, screenWidth, screenHeight).clicks ==>
      ClickedFromAnswer(p, cycles, click)
    decreases |cycles|
  {
    var s := RunLoop(count, cycles, click, screenWidth, screenHeight);
    if count < MaxDailyRequests && cycles != [] && cycles[0].Cycle? {
      var c := cycles[0];
      var next := if c.screenshotOk then AnalyzeScreen(count, c.encodeOk, c.reply).count else count;
      var rest := RunLoop(next, cycles[1..], click, screenWidth, screenHeight);
      ClicksComeFromAnswers(next, cycles[1..], click, screenWidth, screenHeight);
      forall p | p in rest.clicks ensures ClickedFromAnswer(p, cycles, click) {
        var j :| 0 <= j < |cycles[1..]| && cycles[1..][j].Cycle? && cycles[1..][j].reply.Answer? &&
          click(Strip(cycles[1..][j].reply.text)) == Some(p);
        assert cycles[j + 1] == cycles[1..][j];
      }
      if c.screenshotOk {
        var a := AnalyzeScreen(count, c.encodeOk, c.reply);
        if a.response.Some? && a.response.value != [] && click(a.response.value).Some? {
          var p := click(a.response.value).value;
          assert s.clicks == [p] + rest.clicks;
          assert c.reply.Answer? && click(Strip(c.reply.text)) == Some(p);
          assert ClickedFromAnswer(p, cycles, click);
        } else {
          assert s == rest;
        }
      } else {
        assert s == rest;
      }
    }
  }

  /** Some cycle of the script answered with text from which extract_coordinates reads `p`. */
  ghost predicate ReadFromAnswer(p: Point, cycles: seq<Cycle>, screenWidth: int, screenHeight: int) {
    exists j :: 0 <= j < |cycles| && cycles[j].Cycle? && cycles[j].reply.Answer? &&
      ExtractCoordinates(Some(Strip(cycles[j].reply.text)), screenWidth, screenHeight) == Coords(Some(p.x), Some(p.y))
  }

  /** The bot clicks only the pairs extract_coordinates read from one of the answers. */
  lemma BasicClicksAreRepliedPoints(count: nat, cycles: seq<Cycle>, screenWidth: int, screenHeight: int)
    ensures forall p :: p in RunBasicLoop(count, cycles, screenWidth, screenHeight).clicks ==>
      ReadFromAnswer(p, cycles, screenWidth, screenHeight)
  {
    var click := r => ClickAt(r, screenWidth, screenHeight);
    ClicksComeFromAnswers(count, cycles, click, screenWidth, screenHeight);
    forall p | p in RunBasicLoop(count, cycles, screenWidth, screenHeight).clicks
      ensures ReadFromAnswer(p, cycles, screenWidth, screenHeight)
    {
      assert ClickedFromAnswer(p, cycles, click);
      var j :| 0 <= j < |cycles| && cycles[j].Cycle? && cycles[j].reply.Answer? &&
        click(Strip(cycles[j].reply.text)) == Some(p);
      assert ClickAt(Strip(cycles[j].reply.text), screenWidth, screenHeight) == Some(p);
    }
  }

  predicate Answered(c: Cycle) {
    c.Cycle? && c.screenshotOk && c.encodeOk && c.reply.Answer?
  }

  /** With every cycle answered, the loop spends exactly the remaining quota and then
      stops on the limit. */
  lemma {:induction false} AnsweredCyclesExhaustQuota(count: nat, cycles: seq<Cycle>, click: string -> Option<Point>,
                                                      screenWidth: int, screenHeight: int)
    requires OnScreen(click, screenWidth, screenHeight)
    requires count <= MaxDailyRequests
    requires |cycles| >= MaxDailyRequests - count
    requires forall i :: 0 <= i < |cycles| ==> Answered(cycles[i])
    ensures var s := RunLoop(count, cycles, click, screenWidth, screenHeight);
      s.count == MaxDailyRequests && s.reason == LimitReached
    decreases |cycles|
  {
    if count == MaxDailyRequests {
      assert RunLoop(count, cycles, click, screenWidth, screenHeight) == Session(count, [], LimitReached);
    } else {
      AnsweredStepCharges(count, cycles, click, screenWidth, screenHeight);
      AnsweredTail(cycles);
      AnsweredCyclesExhaustQuota(count + 1, cycles[1..], click, screenWidth, screenHeight);
    }
  }

  lemma AnsweredTail(cycles: seq<Cycle>)
    requires cycles != [] && forall i :: 0 <= i < |cycles| ==> Answered(cycles[i])
    ensures forall i :: 0 <= i < |cycles[1..]| ==> Answered(cycles[1..][i])
  {
    forall i | 0 <= i < |cycles[1..]| ensures Answered(cycles[1..][i]) {
      assert cycles[1..][i] == cycles[i + 1];
    }
  }

  /** An answered cycle below the quota charges one request; the counter and the
      stop reason then follow from the rest of the script. */
  lemma AnsweredStepCharges(count: nat, cycles: seq<Cycle>, click: string -> Option<Point>,
                            screenWidth: int, screenHeight: int)
    requires OnScreen(click, screenWidth, screenHeight)
    requires count < MaxDailyRequests
    requires cycles != [] && Answered(cycles[0])
    ensures var s := RunLoop(count, cycles, click, screenWidth, screenHeight);
      var rest := RunLoop(count + 1, cycles[1..], click, screenWidth, screenHeight);
      s.count == rest.count && s.reason == rest.reason
  {
    var c := cycles[0];
    assert AnalyzeScreen(count, c.encodeOk, c.reply).count == count + 1;
  }

  /** Failed screenshots cost nothing: dropping them leaves the session unchanged. */
  lemma {:induction false} FailedScreenshotsAreFree(count: nat, failed: seq<Cycle>, cycles: seq<Cycle>,
                                                    click: string -> Option<Point>,
                                                    screenWidth: int, screenHeight: int)
    requires OnScreen(click, screenWidth, screenHeight)
    requires count < MaxDailyRequests
    requires forall i :: 0 <= i < |failed| ==> failed[i].Cycle? && !failed[i].screenshotOk
    ensures RunLoop(count, failed + cycles, click, screenWidth, screenHeight) ==
            RunLoop(count, cycles, click, screenWidth, screenHeight)
  {
    if failed != [] {
      assert (failed + cycles)[0] == failed[0];
      assert (failed + cycles)[1..] == failed[1..] + cycles;
      FailedScreenshotsAreFree(count, failed[1..], cycles, click, screenWidth, screenHeight);
    } else {
      assert failed + cycles == cycles;
    }
  }

  /** A well-formed on-screen answer is clicked, and the session continues from the
      next cycle with one more request charged. */
  lemma AnswerIsClicked(count: nat, x: int, y: int, cycles: seq<Cycle>, screenWidth: int, screenHeight: int)
    requires count < MaxDailyRequests
    requires 0 <= x <= screenWidth && 0 <= y <= screenHeight
    ensures var first := Cycle(true, true, Answer(Show(x) + "," + Show(y)));
      var s := RunBasicLoop(count, [first] + cycles, screenWidth, screenHeight);
      var rest := RunBasicLoop(count + 1, cycles, screenWidth, screenHeight);
      s == rest.(clicks := [Point(x, y)] + rest.clicks)
  {
    var text := Show(x) + "," + Show(y);
    PlainReplyIsStripped(x, y);
    FormattedAnswerIsClicked(x, y, screenWidth, screenHeight);
    var a := AnalyzeScreen(count, true, Answer(text));
    assert a == Analysis(count + 1, Some(text));
    assert ([Cycle(true, true, Answer(text))] + cycles)[1..] == cycles;
  }

  /** An interrupt ends the session at once, with nothing more charged or clicked. */
  lemma InterruptStops(count: nat, cycles: seq<Cycle>, screenWidth: int, screenHeight: int)
    requires count < MaxDailyRequests
    ensures RunBasicLoop(count, [Interrupt] + cycles, screenWidth, screenHeight) == Session(count, [], Interrupted)
  {
  }
}
